=== FILE: README.md ===
# Progressive regular expressions (`PRegex`) in Dafny

This project models `regex/pregex.js`, the progressive regular expression
used by the form fields to check partially typed input. A pattern such as
`[0-9]{3}-[0-9]{2}` is compiled into a sequence of `PRegexPart`s. Each part
is one atom with a minimum and a maximum number of instances, where `-1`
means unset. `IsMatch` then tests the value against the pattern built from
the first part, then the first two parts, and so on. It succeeds as soon as
one prefix matches, which is how a half-typed value can already be accepted.

The model is split into these modules:

- `JsValues`: the JavaScript values the code touches.
  - `Option`, `Result` with `TypeError` and `SyntaxError`.
  - Numbers as `Int` or `NaN`. Every comparison with `NaN` is false.
  - `parseInt` on the digit strings the parser feeds it.
  - `String(n)` for the bounds.
- `JsString`: `String.prototype.trim`.
- `PRegexPart`: the part record, `ToString` with its swap of inverted bounds,
  and the five `Make...` quantifier setters. It also has a reader
  (`ReadQuantifier`) for the quantifier suffixes that `ToString` writes.
  That reader is the independent partner for the round-trip lemmas.
- `PRegexParse`: the constructor.
  - The parse variables form a `State`.
  - Each `case` of the `switch` is a handler function.
  - `Step` is one loop iteration. Its flag is the source's `i--` re-read of a
    character.
  - `Run` is the `for` loop, and `Finish` the end-of-input flush.
  - `Compile` is the whole of `new PRegex(text)`.
- `PRegexParseFacts`: what the loop does on whole inputs. It covers:
  - plain literals and anchors;
  - escapes;
  - bracket classes;
  - `{m}` and `{m,n}` ranges;
  - re-reading after a pending class;
  - stray `]` and `}`.
- `PRegexMatch`: `IsMatch` and `ToString` as loops. Their contracts refer to a
  recursive reference (`Search` and `Probe`), and `IsMatchAnswer`
  characterises that reference.
- `PRegexMatchFacts`: rendering compiled literal patterns back to text, the
  blank pattern, and the trailing-escape hole.
- `PRegexExample`: the pattern `[0-9]{m}-[0-9]{n}` for any digits `m` and
  `n`, compiled, rendered and matched.

The platform `RegExp` is a parameter of the matching functions:
`test(pattern, value)` stands for `new RegExp(pattern).test(value)`. A
`Failure(SyntaxError)` result stands for a pattern that does not compile.

The model follows the code as written. The behaviours below are easy to
miss when reading the code; the members named in each point prove them:

- **Anchors.** The flags are set by `^` and `$` in the pattern text
  (pregex.js:233-234). `IsMatch` and `ToString` add `^` and `$` only when
  those flags are set (pregex.js:271, 274, 283, 287). See `StartText`,
  `EndText` and `RenderSolo`.
- **Blank pattern.** A pattern that trims to nothing has no parts. The loop
  at pregex.js:272 then never runs, and `IsMatch` answers false for every
  value (`BlankPatternMatchesNothing`).
- **Ordinary characters discard the buffer.** Outside a class or range, with
  nothing pending, an ordinary character becomes a part of its own
  (pregex.js:230-232). The reset in `_MakePRegexPart` then drops whatever
  the buffer and the bounds held (`OrdinaryCharDiscardsBuffer`). Examples:
  - `\*a` gives only the part `a`; the escaped `*` is lost
    (`EscapedQuantifierLost`).
  - `a}b` gives the parts `a` and `b`; the stray `}` is lost
    (`StrayCloseBraceLost`).
  - `a{3}b` gives `a`, then a part with an empty value and minimum 3, then
    `b`. The empty part renders as the text `null`
    (`BareRangeEmitsEmptyPart`).
- **Backslash after a class or range.** A pending class or range is emitted
  before `\`, and the reset that emits it clears the escape the backslash
  has just set (pregex.js:93-96). So `[a]\b` gives the parts `[a]` and `b`
  (`BackslashFlushesPending`, `ClassThenEscapeLost`). Inside an open range
  `\` does not touch the escape (pregex.js:93, `BackslashInsideRange`).
- **Anchors keep the buffer.** `^` and `$` only set their flag, even when
  the buffer holds text such as a stray `}` (pregex.js:233-234,
  `AnchorOnlySetsFlag`).
- **Quantifier inside a range.** A `*`, `+` or `?` inside `{...}` writes
  a fill digit and itself and is emitted at once (pregex.js:131-141,
  148-158, 165-175). The emission resets the range with the rest, including
  the `_rangeValueSet` flag the same branch has just set (pregex.js:250-265),
  so that flag never affects a later character. So `a{?}` gives the
  parts `a` and `0?`, then an `undefined` slot and the part `}`
  (`QuantifierInOpenRange`, `QuantifierInRangeSplitsPattern`). A second `{`
  inside a range is ignored (pregex.js:184, `OpenRangeIgnoredInsideRange`).
- **Quantifier characters.** `*`, `+` and `?` are appended to the buffer,
  which is then emitted with the pending bounds (pregex.js:138-141). So `a+`
  becomes the parts `a` and `+`, which still render as `a+`
  (`EmitQuantifier`, `QuantifierOutsideRange`). The same happens inside a
  class: its reset ends the class, and the `]` that follows is dropped. So
  `[a+]` compiles to the single part `[a+` (`QuantifierEndsClass`), and
  `[0-9+]` likewise to `[0-9+`. The only pattern `IsMatch` builds from it
  is then an unterminated class, which is not a valid regular expression.
- **`{m}`.** A range without a comma sets only the minimum
  (pregex.js:197). See `RunRange` and `RangeBounds`.
- **`{` after a class.** The class text stays in the buffer, and only its
  closed mark is cleared (pregex.js:184-188). See `OpenRange` and
  `RunDigitClass`. A `[` after the range therefore emits nothing, because
  pregex.js:104 tests only that mark, and opens a class in the same buffer.
  So `[0-9]{3}[A-Z]` gives the part `[0-9][` with minimum 3, then the
  literal parts `A`, `-` and `Z`, and the `]` is dropped
  (`OpenBracketOpensClass`, `ClassAfterRangeJoinsBuffer`,
  `RangeThenClassPattern`).
- **Other characters inside a range.** Inside `{...}` everything but
  digits, the first comma and the characters with a case of their own is
  ignored, letters, white space, `^` and `$` included (pregex.js:216-226,
  `RangeIgnoresOther`).
- **Unmatched `]`.** It is dropped (pregex.js:119-125), as
  `StrayCloseBracketDropped` shows.
- **Final buffer.** Any buffer still non-empty at the end leaves an
  `undefined` slot (pregex.js:242-243). `this.pregexParts[this.pregexCount++]`
  reserves the old count. `_MakePRegexPart` stores the part in the next
  slot, and its `undefined` result fills the reserved one. This happens after
  a trailing `[0-9]{3}` (`CompilePattern`) as well as after a trailing `\{`
  (`CompileEscapedSpecial`). `ToString`, and `IsMatch` once it reaches that
  slot, then throw `TypeError` (`Finish`, `TrailingEscapeThrows`,
  `PatternProbes`).
- **Unbounded quantifiers.** The swap at pregex.js:14-18 runs before the
  quantifier table at pregex.js:24-37. It turns every `(m, -1)` into
  `(-1, m)`, so `+`, `*` and `{m,}` are never written, and `[0-9]{3}` renders
  as `[0-9]` (`NoUnboundedQuantifier`, `UnboundedMakersRenderBare`).
- **NaN bounds.** A bound that `parseInt` left as NaN fails every
  comparison, so the part renders bare (`NaNBoundRendersBare`).
- **Progressive test.** For `[0-9]{3}-[0-9]{2}` the first probe is therefore
  the bare `[0-9]`, so any value containing a digit matches, `123-456`
  included (`PatternAcceptsAnyDigit`).
- **`_rangeCount`.** It is only ever set to 0 (pregex.js:264). The branches
  that test it always see zero (`RunKeepsInvariants`).

## Model

| member | source | states |
|---|---|---|
| JsValues.ParseInt | regex/pregex.js:197-198 | `parseInt` is `NaN` exactly when the text is empty or does not start with a digit, and is otherwise a non-negative integer |
| JsValues.ParseIntOfDigits | regex/pregex.js:222 | on a digit string the parsed value is its decimal value, and `NaN` for the empty string |
| JsValues.NatToString | regex/pregex.js:31-36 | `String(n)` of a bound is a canonical decimal |
| JsValues.DecimalOfNatToString | regex/pregex.js:31-36 | reading the decimal text of a bound gives the bound back |
| JsValues.NatToStringOfDecimal | regex/pregex.js:31-36 | printing the value of a canonical decimal gives the same text back |
| JsValues.ParseIntOfNatToString | regex/pregex.js:197-198 | `parseInt(String(n)) == n` for every natural `n` |
| JsString.Trim | regex/pregex.js:87 | `trim()` returns the slice that neither starts nor ends with white space, and everything cut off on either side is white space |
| JsString.TrimKeepsPlainText | regex/pregex.js:87 | text without white space is not changed by `trim()` |
| JsString.TrimOfWhiteSpace | regex/pregex.js:87-88 | text made only of white space trims to the empty string, so nothing is parsed |
| PRegexPart.Normalize | regex/pregex.js:13-18 | the swap keeps the value, exchanges the bounds exactly when the minimum exceeds the maximum, and leaves them ordered |
| PRegexPart.ToStringReadsBack | regex/pregex.js:20-40 | `ToString` is `null` exactly for an empty value. Otherwise it is the value followed by the written form of one quantifier. That quantifier reads back as the swapped bounds, or as no quantifier when those bounds have none, and it is the shortest form for them (`?`, `+`, `*`, `{m}`) |
| PRegexPart.SuffixReadsBack | regex/pregex.js:24-37 | the quantifier table is a faithful encoding. Every suffix is the written form of a quantifier that stands for exactly the bounds it was written for, and it is the shortest such form: `?` not `{0,1}`, `+` not `{1,}`, `*` not `{0,}`, `{m}` not `{m,m}` |
| PRegexPart.ReadQuantifierExact | regex/pregex.js:24-37 | a quantifier text is determined by what it reads as: each quantifier has exactly one written form with canonical decimals |
| PRegexPart.ToStringStable | regex/pregex.js:13-18 | the swap is idempotent, and a second `ToString` on the part it left behind gives the same text |
| PRegexPart.UnboundedRendersBare | regex/pregex.js:14-31 | a part with a set minimum and no maximum renders as its bare value, because the swap runs before the table |
| PRegexPart.UnsetRendersBare | regex/pregex.js:20-40 | a part with both bounds unset renders as its bare value |
| PRegexPart.NaNBoundRendersBare | regex/pregex.js:14-37 | a part with a NaN bound renders as its bare value, because no comparison in the swap or in the table holds |
| PRegexPart.NoUnboundedQuantifier | regex/pregex.js:13-40 | no part ever renders with `+`, `*` or `{m,}` |
| PRegexPart.MakeBetween | regex/pregex.js:43-48 | both bounds are set exactly when both arguments are numbers `>= 0`; otherwise the part is unchanged |
| PRegexPart.MakeMinOrMany | regex/pregex.js:50-55 | a positive minimum is set with the maximum unset; any other argument leaves the part unchanged |
| PRegexPart.UnboundedMakersRenderBare | regex/pregex.js:50-65 | after `MakeOneOrMany`, `MakeZeroOrMany` or `MakeMinOrMany` the part renders as its bare value |
| PRegexPart.OneOrNoneRendersOptional | regex/pregex.js:67-70 | after `MakeOneOrNone` the part renders as its value followed by `?` |
| PRegexPart.BetweenReadsBackOrdered | regex/pregex.js:43-48 | `MakeBetween(a, b)` with a positive bound renders a quantifier that reads back as the two bounds in ascending order, whichever order they were given in |
| PRegexParse.ResetParseVars | regex/pregex.js:253-267 | every parse variable, the range variables included, goes back to its initial value, and the parts and anchors are kept |
| PRegexParse.MakePart | regex/pregex.js:247-251 | exactly one part is stored after the existing ones, which are unchanged, and the parse state is reset |
| PRegexParse.Flush | regex/pregex.js:94-96 | emitting the pending buffer appends exactly the part made of the buffer and the pending bounds. It leaves both anchor flags unchanged and resets the parse state |
| PRegexParse.Backslash | regex/pregex.js:92-98 | the `\` handler emits at most one part, keeps the anchors and keeps the range variables sane |
| PRegexParse.OpenBracket | regex/pregex.js:99-114 | the `[` handler emits at most one part, keeps the anchors and keeps the range variables sane; its branches are stated by `OpenBracketOpensClass`, `OpenBracketFlushesClass` and `NestedOpenBracketEscaped` |
| PRegexParse.CloseBracket | regex/pregex.js:115-126 | the `]` handler emits at most one part, keeps the anchors and keeps the range variables sane; its branches are stated by `CloseBracketClosesClass`, `StrayCloseBracketDropped` and `EscapedSpecialExtendsBuffer` |
| PRegexParse.QuantifierChar | regex/pregex.js:127-178 | the `*`, `+` and `?` handlers emit at most one part and keep the range variables sane; their branches are stated by `QuantifierOutsideRange`, `QuantifierInOpenRange` and `EscapedSpecialExtendsBuffer` |
| PRegexParse.EmitQuantifier | regex/pregex.js:138-141 | while the range count is zero, exactly one part is appended: the buffer followed by the quantifier character, with the pending bounds. The anchors are unchanged and the parse state is reset |
| PRegexParse.OpenRange | regex/pregex.js:179-190 | the `{` handler emits at most one part, keeps the anchors and keeps the range variables sane |
| PRegexParse.CloseRange | regex/pregex.js:191-205 | the `}` handler emits at most one part, keeps the anchors and keeps the range count zero and the digit buffer all digits |
| PRegexParse.RangeChar | regex/pregex.js:216-226 | a character inside a range keeps the digit buffer all digits, keeps the anchors and emits at most one part; its branches are stated by `RunRangeDigits`, `RunRangeAfterComma`, `StepFirstComma` and `RangeIgnoresOther` |
| PRegexParse.OtherChar | regex/pregex.js:206-239 | a character is re-read only when a closed class or range was pending, and then exactly that pending part has been emitted |
| PRegexParse.Step | regex/pregex.js:91-240 | one iteration emits at most one part, never `undefined`, and keeps the anchors; a re-read clears the pending state, which makes the loop terminate |
| PRegexParse.RunKeepsParts | regex/pregex.js:89-241 | the loop never changes or removes a part it has already emitted |
| PRegexParse.RunAppendsParts | regex/pregex.js:89-241 | every slot the loop fills holds a real part |
| PRegexParse.RunKeepsInvariants | regex/pregex.js:89-241 | anchor flags once set stay set, the range count stays zero, and the range digit buffer holds only digits |
| PRegexParse.Finish | regex/pregex.js:242-243 | with an empty buffer nothing is added; otherwise the slot at the old count is `undefined` and the part is stored in the slot after it |
| PRegexParse.Compile | regex/pregex.js:74-245 | blank text gives no parts and no anchors, and an `undefined` slot can only be the second-to-last slot |
| PRegexParseFacts.RunConcat | regex/pregex.js:89-241 | running the loop over `a + b` is running it over `a` and then over `b` |
| PRegexParseFacts.StepSolo | regex/pregex.js:227-235 | in a fresh state an ordinary character is emitted as its own part, and `^` or `$` sets its flag |
| PRegexParseFacts.RunSoloParts | regex/pregex.js:227-235 | over ordinary characters and anchors the loop emits exactly one unquantified part per non-anchor character, in order, and stays fresh |
| PRegexParseFacts.RunSoloFlags | regex/pregex.js:230-234 | the start and end flags are set exactly when `^` and `$` occur in the text |
| PRegexParseFacts.CompileSolo | regex/pregex.js:74-245 | compiling such text gives the per-character parts and the two anchor flags, with no `undefined` slot |
| PRegexParseFacts.CompileOfPlain | regex/pregex.js:86-89 | text that needs no trimming is parsed as it is |
| PRegexParseFacts.EscapedSpecialExtendsBuffer | regex/pregex.js:99-205 | an escaped special character is appended to the buffer and clears the escape, without emitting |
| PRegexParseFacts.EscapedOrdinaryEmits | regex/pregex.js:207-210 | an escaped ordinary character completes the buffer, which is emitted with the pending bounds |
| PRegexParseFacts.CompileEscapedOrdinary | regex/pregex.js:92-98 | `\c` for an ordinary `c` compiles to the single part `\c` |
| PRegexParseFacts.CompileEscapedSpecial | regex/pregex.js:242-243 | `\c` for a special `c` compiles to an `undefined` slot followed by the part `\c` |
| PRegexParseFacts.RunClass | regex/pregex.js:99-126 | `[body]` is appended to the buffer verbatim and leaves a closed class pending |
| PRegexParseFacts.RunRangeDigits | regex/pregex.js:216-218 | digits inside a range accumulate in the range buffer and nothing else changes |
| PRegexParseFacts.RunRangeAfterComma | regex/pregex.js:219-226 | after the first comma, later commas are ignored and digits keep accumulating |
| PRegexParseFacts.RunRange | regex/pregex.js:179-205 | `{w}` over digits and commas sets the minimum to the number before the first comma and, only if there is a comma, the maximum to the digits after it; the range is left closed and pending |
| PRegexParseFacts.RunDigitRange | regex/pregex.js:179-205 | `{d}` with one digit `d` sets the minimum to `d`, keeps the maximum, and leaves the range closed and pending with nothing else changed |
| PRegexParseFacts.PendingFlushedBeforeOther | regex/pregex.js:212-214 | an ordinary character after a pending class or range first emits that part and is then read again |
| PRegexParseFacts.QuantifierOutsideRange | regex/pregex.js:127-178 | outside a range an unescaped `*`, `+` or `?` emits the buffer followed by the character with the pending bounds, whatever the buffer held: an open or closed class, a closed range, or plain text |
| PRegexParseFacts.StrayCloseBraceAppended | regex/pregex.js:201-203 | a `}` outside a range is appended to the buffer as literal text |
| PRegexParseFacts.StrayCloseBracketDropped | regex/pregex.js:115-126 | a `]` outside a class changes nothing |
| PRegexParseFacts.OpenBracketOpensClass | regex/pregex.js:99-114 | with no class open or closed, `[` opens a class in the same buffer and emits nothing, even when a closed range is pending |
| PRegexParseFacts.CloseBracketClosesClass | regex/pregex.js:115-126 | an unescaped `]` closes an open class, whether or not a range is open, and is appended to the buffer |
| PRegexParseFacts.RangeIgnoresOther | regex/pregex.js:206-226 | inside an open range, any character without a case of its own other than a digit and the first comma leaves the state unchanged, anchors included |
| PRegexParseFacts.RunQuantifierInClass | regex/pregex.js:99-178 | `[aq]` with `q` one of `*`, `+`, `?` emits the part `[aq` and drops the `]` |
| PRegexParseFacts.QuantifierEndsClass | regex/pregex.js:85-245 | `[aq]` compiles to the single part `[aq`, an unterminated class |
| PRegexParseFacts.BackslashTogglesEscape | regex/pregex.js:92-98 | with nothing pending and no range open, `\` flips the escape flag and is appended to the buffer |
| PRegexParseFacts.BackslashFlushesPending | regex/pregex.js:92-98 | a pending class or range is emitted before `\`, and the emitting reset clears the escape just set, so the buffer restarts as an unescaped `\` |
| PRegexParseFacts.BackslashInsideRange | regex/pregex.js:92-98 | inside an open range `\` leaves the escape flag alone and is only appended to the buffer |
| PRegexParseFacts.OpenBracketFlushesClass | regex/pregex.js:99-114 | an unescaped `[` after a closed class emits that class, then opens a new class whose buffer starts with `[` |
| PRegexParseFacts.NestedOpenBracketEscaped | regex/pregex.js:99-114 | an unescaped `[` inside an open class is appended as `\[` and nothing else changes |
| PRegexParseFacts.OpenRangeIgnoredInsideRange | regex/pregex.js:179-190 | an unescaped `{` inside an open range changes nothing |
| PRegexParseFacts.QuantifierInOpenRange | regex/pregex.js:127-178 | inside an open range `*` and `?` add `0` and `+` adds `1` while the first number is read, only `?` adds `1` after the comma; the buffer, that digit and the quantifier are emitted at once with the pending bounds and the range is reset |
| PRegexParseFacts.AnchorOnlySetsFlag | regex/pregex.js:227-235 | outside a class or range, with nothing escaped or pending, `^` and `$` set their flag and keep the buffer and bounds, whatever those hold |
| PRegexParseFacts.ClassThenEscapeLost | regex/pregex.js:92-98 | `[a]\b` gives exactly the parts `[a]` and `b`: the backslash is lost |
| PRegexParseFacts.QuantifierInRangeSplitsPattern | regex/pregex.js:161-243 | `a{?}` compiles to the parts `a` and `0?`, an `undefined` slot, and the part `}` |
| PRegexParseFacts.OrdinaryCharDiscardsBuffer | regex/pregex.js:230-232 | outside a class or range, with nothing escaped or pending, an ordinary character becomes a one-character part with unset bounds, whatever the buffer and bounds held |
| PRegexParseFacts.EscapedQuantifierLost | regex/pregex.js:127-178 | a backslash, then a quantifier character `q`, then an ordinary `a` leaves only the part `a` |
| PRegexParseFacts.StrayCloseBraceLost | regex/pregex.js:201-203 | `a}b` gives the parts `a` and `b`: the `}` appended to the buffer is discarded |
| PRegexParseFacts.RunPendingThenOrdinary | regex/pregex.js:212-232 | an ordinary character after a pending class or range emits the pending part, then becomes a one-character part with unset bounds, and the rest of the text is read from there |
| PRegexParseFacts.BareRangeEmitsEmptyPart | regex/pregex.js:179-214 | `a{d}b` gives `a`, a part with an empty value and minimum `d`, then `b`; the empty part renders as `null` |
| PRegexMatch.Texts | regex/pregex.js:284-286 | the concatenation fails exactly when some slot is `undefined`, and then with `TypeError` |
| PRegexMatch.Probe | regex/pregex.js:271-274 | the pattern for the first `k` parts exists exactly when none of them is `undefined` |
| PRegexMatch.SearchFalse | regex/pregex.js:272-278 | the progressive search answers false exactly when every probe from `k` on tests false |
| PRegexMatch.SearchDecides | regex/pregex.js:272-278 | any other answer is the outcome of the first probe that does not test false |
| PRegexMatch.SearchHole | regex/pregex.js:273 | reaching an `undefined` slot ends the search with `TypeError` |
| PRegexMatch.IsMatch | regex/pregex.js:269-280 | the loop returns the first probe outcome that is not false (a match or an exception), and false when all test false or there are no parts |
| PRegexMatch.IsMatchAnswer | regex/pregex.js:269-280 | `IsMatch` is false exactly when every probe tests false; otherwise some first deciding probe gives the answer |
| PRegexMatch.SearchReachesLast | regex/pregex.js:269-280 | when every iteration before the last tests false, the answer of `IsMatch` is the outcome of the last iteration |
| PRegexMatch.LastProbeIsToString | regex/pregex.js:269-289 | the last iteration of `IsMatch` tests the string `ToString` returns, and it gives the answer when every earlier iteration tested false |
| PRegexMatch.ToString | regex/pregex.js:282-289 | the result is the anchored concatenation of all part texts, and fails with `TypeError` exactly when a slot is `undefined` |
| PRegexMatchFacts.TextsAppend | regex/pregex.js:284-286 | the text of two runs of parts is the concatenation of their texts |
| PRegexMatchFacts.TextsOfLiteralParts | regex/pregex.js:230-231 | the per-character parts of a literal pattern render as the text without its anchors |
| PRegexMatchFacts.RenderSolo | regex/pregex.js:282-289 | a literal pattern renders as its characters with the anchors moved to the two ends |
| PRegexMatchFacts.PlainPatternRoundTrip | regex/pregex.js:282-289 | a literal pattern with optional leading `^` and trailing `$` renders back exactly as it was written |
| PRegexMatchFacts.BareAppend | regex/pregex.js:233-234 | removing anchors distributes over concatenation |
| PRegexMatchFacts.BlankPatternMatchesNothing | regex/pregex.js:87-89 | a blank pattern matches no value, without consulting the engine |
| PRegexMatchFacts.TrailingEscapeThrows | regex/pregex.js:242-243 | a pattern that is only an escaped special character makes both `IsMatch` and `ToString` throw `TypeError` |
| PRegexExample.RunDigitClass | regex/pregex.js:99-205 | `[0-9]{d}` leaves the class text pending with minimum `d` and no maximum |
| PRegexExample.ClassAfterRangeJoinsBuffer | regex/pregex.js:99-114 | `[0-9]{d}[b` gives the part `[0-9][` with minimum `d`, then `b`: the second `[` does not emit the first class |
| PRegexExample.RangeThenClassPattern | regex/pregex.js:99-232 | `[0-9]{d}[a-z]` gives `[0-9][` with minimum `d`, then the literal parts `a`, `-` and `z`; the `]` is dropped |
| PRegexExample.CompilePattern | regex/pregex.js:74-245 | `[0-9]{m}-[0-9]{n}` compiles to `[0-9]` with minimum `m`, the bare `-`, an `undefined` slot, and `[0-9]` with minimum `n` |
| PRegexExample.PatternProbes | regex/pregex.js:269-278 | the probes of that pattern are `[0-9]`, then `[0-9]-`, then a `TypeError` |
| PRegexExample.PatternAcceptsAnyDigit | regex/pregex.js:269-279 | whenever the engine finds a digit in the value, the pattern matches; in particular `123-456` matches |

## Left out

- The `RegExp` engine is a parameter (`test`). Pattern compilation and
  matching belong to the platform and are not modelled.
- The constructor's default argument `null`, and `trim` on a value that is
  not a string, are not modelled: the pattern is always a string. Likewise
  `IsMatch` is given a string value.
- `PRegexPart`'s default arguments (`value = null`, bounds `-1`) are not
  modelled. The parser always passes a string and both bounds, and an empty
  value renders as `null` in the same way.
- The preallocated `Array(10)` is a sequence. Slots beyond `pregexCount` are
  never read.
- PRegexPart.MakeBetween: its arguments are integers or NaN. In JavaScript
  any value can be passed, and `!isNaN(x) && x >= 0` also admits fractions,
  `Infinity` and numeric strings, which are then stored and rendered (for
  example `{1.5,2}`). A missing argument is `undefined`, which fails the
  test like NaN.
- PRegexPart.MakeMinOrMany: the same restriction on its argument; a positive
  fraction or `Infinity` would be stored as the minimum in JavaScript.
- `ToString` on a part swaps its bounds in place. The model computes the
  swapped part instead; `ToStringStable` shows that later calls cannot tell
  the difference.
- JsValues.ParseInt: modelled only on the digit strings the parser gives it.
  Leading white space, signs and precision loss above 2^53 are not
  modelled, and neither is the exponent notation `String` uses for huge
  numbers.
- Strings are sequences of Unicode scalar values. JavaScript indexes UTF-16
  code units, so a character outside the Basic Multilingual Plane is one
  step here and two steps in the source.
- The form field classes and layout helpers in the rest of the repository
  are not part of this model. They only construct patterns and call
  `IsMatch`.

=== FILE: js_string.dfy ===
/** `String.prototype.trim`, which the `PRegex` constructor applies to the
    pattern text before parsing it. */
module JsString {

  /** The ECMAScript WhiteSpace and LineTerminator code points. */
  const WhiteSpace: set<char> := {
    '\t', '\n', '\U{000B}', '\U{000C}', '\r', ' ', '\U{00A0}', '\U{1680}',
    '\U{2000}', '\U{2001}', '\U{2002}', '\U{2003}', '\U{2004}', '\U{2005}',
    '\U{2006}', '\U{2007}', '\U{2008}', '\U{2009}', '\U{200A}',
    '\U{2028}', '\U{2029}', '\U{202F}', '\U{205F}', '\U{3000}', '\U{FEFF}'
  }

  predicate IsWhiteSpace(c: char) { c in WhiteSpace }

  predicate NoWhiteSpace(s: string) { forall i :: 0 <= i < |s| ==> !IsWhiteSpace(s[i]) }

  /** The index of the first character at or after `k` that is not white
      space, or `|s|`. */
  function TrimStartIndex(s: string, k: nat): (lo: nat)
    requires k <= |s|
    decreases |s| - k
    ensures k <= lo <= |s|
    ensures forall i :: k <= i < lo ==> IsWhiteSpace(s[i])
    ensures lo < |s| ==> !IsWhiteSpace(s[lo])
  {
    if k < |s| && IsWhiteSpace(s[k]) then TrimStartIndex(s, k + 1) else k
  }

  /** The end of `s[lo..k]` once its trailing white space is cut off. */
  function TrimEndIndex(s: string, lo: nat, k: nat): (hi: nat)
    requires lo <= k <= |s|
    decreases k - lo
    ensures lo <= hi <= k
    ensures forall i :: hi <= i < k ==> IsWhiteSpace(s[i])
    ensures hi > lo ==> !IsWhiteSpace(s[hi - 1])
  {
    if k > lo && IsWhiteSpace(s[k - 1]) then TrimEndIndex(s, lo, k - 1) else k
  }

  /** `s.trim()`: the slice `s[lo..hi]` such that everything outside it is
      white space and it neither starts nor ends with white space. */
  function Trim(s: string): (r: string)
    ensures exists lo, hi ::
              && 0 <= lo <= hi <= |s| && r == s[lo..hi]
              && (forall i :: 0 <= i < lo ==> IsWhiteSpace(s[i]))
              && (forall i :: hi <= i < |s| ==> IsWhiteSpace(s[i]))
    ensures r != [] ==> !IsWhiteSpace(r[0]) && !IsWhiteSpace(r[|r| - 1])
  {
    var lo := TrimStartIndex(s, 0);
    var hi := TrimEndIndex(s, lo, |s|);
    s[lo..hi]
  }

  /** Text without white space is left as it is. */
  lemma TrimKeepsPlainText(s: string)
    requires NoWhiteSpace(s)
    ensures Trim(s) == s
  {
  }

  /** Text made only of white space trims to the empty string. */
  lemma TrimOfWhiteSpace(s: string)
    requires forall i :: 0 <= i < |s| ==> IsWhiteSpace(s[i])
    ensures Trim(s) == ""
  {
  }
}

=== FILE: js_values.dfy ===
/** The JavaScript values the pattern matcher handles: `null`/`undefined`
    slots, thrown exceptions, and the numbers it stores as repeat bounds. */
module JsValues {

  /** A slot that may hold `null` or `undefined` (None) or a value (Some). */
  datatype Option<+T> = None | Some(value: T)

  /** The exceptions the matcher can raise: a `TypeError` from calling a
      method on `undefined`, and a `SyntaxError` from the `RegExp` constructor. */
  datatype JsError = TypeError | SyntaxError

  /** The outcome of a call that may throw. */
  datatype Result<+T> = Success(value: T) | Failure(error: JsError)

  /** A JavaScript number as the matcher uses it: an integer (with `-1` as the
      "unset" sentinel) or the NaN that `parseInt` returns for an empty digit run. */
  datatype Num = Int(v: int) | NaN

  /** JavaScript `<`, `>`, `>=` and `==` on numbers: every comparison with NaN is false. */
  predicate Less(a: Num, b: Num) { a.Int? && b.Int? && a.v < b.v }

  predicate Greater(a: Num, b: Num) { a.Int? && b.Int? && a.v > b.v }

  predicate AtLeast(a: Num, b: Num) { a.Int? && b.Int? && a.v >= b.v }

  predicate Same(a: Num, b: Num) { a.Int? && b.Int? && a.v == b.v }

  /** Regrouping a concatenation of three sequences. */
  lemma AppendAssoc<T>(a: seq<T>, b: seq<T>, c: seq<T>)
    ensures a + (b + c) == (a + b) + c
  {
  }

  predicate IsDigit(c: char) { '0' <= c <= '9' }

  predicate AllDigits(s: string) { forall i :: 0 <= i < |s| ==> IsDigit(s[i]) }

  /** A decimal numeral without redundant leading zeros, as `String(n)` writes one. */
  predicate Canonical(s: string) { |s| > 0 && AllDigits(s) && (|s| == 1 || s[0] != '0') }

  function DigitValue(c: char): (d: nat)
    requires IsDigit(c)
    ensures d < 10
  {
    c as int - '0' as int
  }

  function Digit(d: nat): (c: char)
    requires d < 10
    ensures IsDigit(c) && DigitValue(c) == d
  {
    ('0' as int + d) as char
  }

  /** The value of a run of decimal digits. */
  function DecimalValue(s: string): nat
    requires AllDigits(s)
  {
    if s == [] then 0 else 10 * DecimalValue(s[..|s| - 1]) + DigitValue(s[|s| - 1])
  }

  /** `String(n)` for a non-negative integer. */
  function NatToString(n: nat): (s: string)
    ensures Canonical(s)
  {
    if n < 10 then [Digit(n)] else NatToString(n / 10) + [Digit(n % 10)]
  }

  /** `String(x)` for the numbers the matcher can hold. */
  function NumberText(x: Num): string
  {
    match x
    case NaN => "NaN"
    case Int(v) => if v < 0 then "-" + NatToString(-v) else NatToString(v)
  }

  /** Reading a written number gives the number back. */
  lemma {:induction false} DecimalOfNatToString(n: nat)
    ensures DecimalValue(NatToString(n)) == n
  {
    if n >= 10 {
      var s := NatToString(n);
      assert s[..|s| - 1] == NatToString(n / 10);
      DecimalOfNatToString(n / 10);
    }
  }

  lemma {:induction false} LeadingNonZeroIsPositive(s: string)
    requires |s| > 0 && AllDigits(s) && s[0] != '0'
    ensures DecimalValue(s) >= 1
  {
    if |s| > 1 {
      LeadingNonZeroIsPositive(s[..|s| - 1]);
    }
  }

  /** Writing the value of a canonical numeral gives the numeral back, so
      `NatToString` is a bijection onto the canonical numerals. */
  lemma {:induction false} NatToStringOfDecimal(s: string)
    requires Canonical(s)
    ensures NatToString(DecimalValue(s)) == s
  {
    if |s| > 1 {
      var t := s[..|s| - 1];
      LeadingNonZeroIsPositive(t);
      NatToStringOfDecimal(t);
      assert s == t + [s[|s| - 1]];
    }
  }

  /** The longest prefix of `s` made of decimal digits. */
  function DigitRun(s: string): (d: string)
    ensures AllDigits(d) && d <= s
    ensures |d| < |s| ==> !IsDigit(s[|d|])
  {
    if s == [] || !IsDigit(s[0]) then [] else [s[0]] + DigitRun(s[1..])
  }

  /** `parseInt(s)` on the strings the matcher passes it: the value of the
      leading digit run, or NaN when there is none. */
  function ParseInt(s: string): (r: Num)
    ensures r.NaN? <==> s == [] || !IsDigit(s[0])
    ensures r.Int? ==> r.v >= 0
  {
    var d := DigitRun(s);
    if d == [] then NaN else Int(DecimalValue(d))
  }

  lemma {:induction false} DigitRunOfDigits(s: string)
    requires AllDigits(s)
    ensures DigitRun(s) == s
  {
    if s != [] {
      DigitRunOfDigits(s[1..]);
    }
  }

  /** On a digit string, `parseInt` is the decimal value, and NaN exactly when
      the string is empty. */
  lemma ParseIntOfDigits(s: string)
    requires AllDigits(s)
    ensures ParseInt(s) == if s == [] then NaN else Int(DecimalValue(s))
  {
    DigitRunOfDigits(s);
  }

  /** `parseInt(String(n)) == n`. */
  lemma ParseIntOfNatToString(n: nat)
    ensures ParseInt(NatToString(n)) == Int(n)
  {
    ParseIntOfDigits(NatToString(n));
    DecimalOfNatToString(n);
  }
}

=== FILE: pregex_example.dfy ===
/** The pattern `[0-9]{3}-[0-9]{2}` worked through the constructor, `ToString`
    and `IsMatch`. */
module PRegexExample {
  import opened JsValues
  import opened JsString
  import opened PRegexPart
  import opened PRegexParse
  import opened PRegexParseFacts
  import opened PRegexMatch

  /** A class followed by a range, read with nothing pending: the class text
      stays in the buffer with the range's bounds, waiting to be flushed. */
  lemma RunQuantifiedClass(body: string, w: string, st: State)
    requires AllClassChars(body) && AllRangeBodyChars(w) && Fresh(st)
    ensures var (lo, hi) := RangeBounds(w, Unset);
            Run("[" + body + "]" + "{" + w + "}", st)
            == st.(partRegexString := "[" + body + "]", minimumInstances := lo, maximumInstances := hi,
                   range := IdleRange.(rangeClosed := true))
  {
    var cls, rng := "[" + body + "]", "{" + w + "}";
    assert "[" + body + "]" + "{" + w + "}" == cls + rng;
    RunConcat(cls, rng, st);
    RunClass(body, st);
    var st1 := Append(st, cls).(bracketListClosed := true);
    assert st1.maximumInstances == Unset && st1.partRegexString == cls by {
      assert st.partRegexString + cls == cls;
    }
    RunRange(w, st1);
  }

  lemma ParseSmall(d: char)
    requires IsDigit(d)
    ensures ParseInt([d]) == Int(DigitValue(d))
  {
    ParseIntOfDigits([d]);
    assert [d][..0] == [];
  }

  const Digits: string := "0-9"

  /** The pattern `[0-9]{m}-[0-9]{n}` for single digits `m` and `n`, such as
      `[0-9]{3}-[0-9]{2}`. */
  function Pattern(m: char, n: char): string
  {
    "[0-9]{" + [m] + "}-[0-9]{" + [n] + "}"
  }

  /** The parts the constructor builds for `Pattern(m, n)`: the first class
      with minimum m (the maximum stays unset, since `{n}` sets only the
      minimum), the literal `-`, then the `undefined` slot of the end-of-input
      flush in front of the second class with minimum n. */
  function PatternParts(m: char, n: char): seq<Option<Part>>
    requires IsDigit(m) && IsDigit(n)
  {
    [ Some(Part("[0-9]", Int(DigitValue(m)), Unset)),
      Some(Part("-", Unset, Unset)),
      None,
      Some(Part("[0-9]", Int(DigitValue(n)), Unset)) ]
  }

  /** The state after `[0-9]{d}` from a state with nothing pending. */
  function AfterClass(st: State, d: nat): State
  {
    st.(partRegexString := "[0-9]", minimumInstances := Int(d), maximumInstances := Unset,
        range := IdleRange.(rangeClosed := true))
  }

  lemma RunDigitClass(d: char, st: State)
    requires IsDigit(d) && Fresh(st)
    ensures Run("[0-9]{" + [d] + "}", st) == AfterClass(st, DigitValue(d))
  {
    assert AllClassChars(Digits);
    assert AllRangeBodyChars([d]);
    assert "[0-9]{" + [d] + "}" == "[" + Digits + "]" + "{" + [d] + "}";
    RunQuantifiedClass(Digits, [d], st);
    ParseSmall(d);
    assert IndexOf([d], ',') == None;
  }

  /** `[0-9]{m}-` emits the class with minimum m, then the literal `-`. */
  lemma RunPatternPrefix(m: char, rest: string)
    requires IsDigit(m)
    ensures Run("[0-9]{" + [m] + "}" + (['-'] + rest), Initial)
            == Run(rest, Initial.(parts := [Some(Part("[0-9]", Int(DigitValue(m)), Unset)),
                                            Some(Part("-", Unset, Unset))]))
  {
    var a := "[0-9]{" + [m] + "}";
    RunConcat(a, ['-'] + rest, Initial);
    RunDigitClass(m, Initial);
    var st2 := AfterClass(Initial, DigitValue(m));
    RunPendingThenOrdinary('-', rest, st2);
    FlushAfterClass(Initial, DigitValue(m));
    var emitted := Initial.(parts := [Some(Part("[0-9]", Int(DigitValue(m)), Unset))]);
    assert MakePart(emitted, "-", Unset, Unset)
        == Initial.(parts := [Some(Part("[0-9]", Int(DigitValue(m)), Unset)), Some(Part("-", Unset, Unset))]);
  }

  /** Flushing the pending class emits it with its bounds and resets the rest. */
  lemma FlushAfterClass(st: State, d: nat)
    requires Fresh(st)
    ensures Flush(AfterClass(st, d)) == st.(parts := st.parts + [Some(Part("[0-9]", Int(d), Unset))])
  {
  }

  lemma RunPattern(m: char, n: char)
    requires IsDigit(m) && IsDigit(n)
    ensures Run(Pattern(m, n), Initial)
            == AfterClass(Initial.(parts := PatternParts(m, n)[..2]), DigitValue(n))
  {
    var a, b := "[0-9]{" + [m] + "}", "[0-9]{" + [n] + "}";
    assert Pattern(m, n) == a + (['-'] + b);
    RunPatternPrefix(m, b);
    assert PatternParts(m, n)[..2]
        == [Some(Part("[0-9]", Int(DigitValue(m)), Unset)), Some(Part("-", Unset, Unset))];
    var st3 := Initial.(parts := PatternParts(m, n)[..2]);
    RunDigitClass(n, st3);
  }

  /** `new PRegex("[0-9]{m}-[0-9]{n}")` builds `PatternParts(m, n)`. */
  lemma CompilePattern(m: char, n: char)
    requires IsDigit(m) && IsDigit(n)
    ensures Compile(Pattern(m, n)) == PRegex(PatternParts(m, n), false, false)
  {
    PatternIsPlain(m, n);
    CompileOfPlain(Pattern(m, n));
    RunPattern(m, n);
    FinishPattern(m, n);
  }

  lemma PatternIsPlain(m: char, n: char)
    requires IsDigit(m) && IsDigit(n)
    ensures Pattern(m, n) != [] && NoWhiteSpace(Pattern(m, n))
  {
    var s := Pattern(m, n);
    forall i | 0 <= i < |s| ensures !IsWhiteSpace(s[i]) {
      assert s[i] in "[0-9]{}-" || s[i] == m || s[i] == n;
    }
  }

  /** The end-of-input flush of the second class leaves the hole before it. */
  lemma FinishPattern(m: char, n: char)
    requires IsDigit(m) && IsDigit(n)
    ensures Finish(AfterClass(Initial.(parts := PatternParts(m, n)[..2]), DigitValue(n)))
            == PRegex(PatternParts(m, n), false, false)
  {
    var st := AfterClass(Initial.(parts := PatternParts(m, n)[..2]), DigitValue(n));
    var p := Finish(st);
    assert p.parts[..2] == PatternParts(m, n)[..2];
    assert p.parts == PatternParts(m, n);
  }

  /** `[0-9]{d}[b`: the `{` cleared the class's closed mark, so the second
      `[` does not emit the first class. It opens a class in the same buffer,
      and the pending range emits `[0-9][` only when `b` arrives. */
  lemma ClassAfterRangeJoinsBuffer(d: char, b: char)
    requires IsDigit(d) && !IsSpecial(b) && !IsAnchor(b)
    ensures Run("[0-9]{" + [d] + "}" + ['[', b], Initial)
            == Initial.(parts := [Some(Part("[0-9][", Int(DigitValue(d)), Unset)), Some(Part([b], Unset, Unset))])
  {
    var st := AfterClass(Initial, DigitValue(d));
    var st2 := Append(st, "[").(bracketListOpen := true);
    RunDigitClass(d, Initial);
    OpenBracketOpensClass(st);
    RunConcat("[0-9]{" + [d] + "}", ['[', b], Initial);
    assert ['[', b] == ['['] + [b];
    RunCons('[', [b], st);
    RunPendingThenOrdinary(b, [], st2);
    assert [b] + [] == [b];
    var emitted := Initial.(parts := [Some(Part("[0-9][", Int(DigitValue(d)), Unset))]);
    assert st2.partRegexString == "[0-9][" by {
      assert "[0-9]" + "[" == "[0-9][";
    }
    assert Flush(st2) == emitted;
    assert MakePart(emitted, [b], Unset, Unset)
        == Initial.(parts := [Some(Part("[0-9][", Int(DigitValue(d)), Unset)), Some(Part([b], Unset, Unset))]);
  }

  /** `-z]` read with nothing pending: two literal parts, and the `]` is
      dropped. */
  lemma RunDashTail(z: char, st: State)
    requires Fresh(st) && !IsSpecial(z) && !IsAnchor(z)
    ensures Run(['-', z] + "]", st).parts
            == st.parts + [Some(Part("-", Unset, Unset)), Some(Part([z], Unset, Unset))]
  {
    var s1 := MakePart(st, "-", Unset, Unset);
    var s2 := MakePart(s1, [z], Unset, Unset);
    OrdinaryCharDiscardsBuffer(st, '-');
    OrdinaryCharDiscardsBuffer(s1, z);
    StrayCloseBracketDropped(s2);
    assert ['-', z] + "]" == ['-'] + [z, ']'];
    RunCons('-', [z, ']'], st);
    assert [z, ']'] == [z] + [']'];
    RunCons(z, [']'], s1);
    RunOne(']', s2);
    AppendAssoc(st.parts, [Some(Part("-", Unset, Unset))], [Some(Part([z], Unset, Unset))]);
  }

  /** `[0-9]{d}[a-z]`: the second class falls apart into the literal parts
      `a`, `-` and `z`, its `]` is dropped, and the first part is the
      unterminated class `[0-9][`. */
  lemma RangeThenClassPattern(d: char, a: char, z: char)
    requires IsDigit(d) && !IsSpecial(a) && !IsAnchor(a) && !IsSpecial(z) && !IsAnchor(z)
    ensures Run("[0-9]{" + [d] + "}" + ['[', a, '-', z, ']'], Initial).parts
            == [Some(Part("[0-9][", Int(DigitValue(d)), Unset)), Some(Part([a], Unset, Unset)),
                Some(Part("-", Unset, Unset)), Some(Part([z], Unset, Unset))]
  {
    var head := "[0-9]{" + [d] + "}" + ['[', a];
    var st := Initial.(parts := [Some(Part("[0-9][", Int(DigitValue(d)), Unset)), Some(Part([a], Unset, Unset))]);
    assert "[0-9]{" + [d] + "}" + ['[', a, '-', z, ']'] == head + (['-', z] + "]");
    RunConcat(head, ['-', z] + "]", Initial);
    ClassAfterRangeJoinsBuffer(d, a);
    RunDashTail(z, st);
  }

  /** The patterns `IsMatch` builds: the first class renders bare, because
      the swap turns (m, -1) into (-1, m), which has no suffix; the third
      iteration reaches the hole and throws. */
  lemma PatternProbes(m: char, n: char)
    requires IsDigit(m) && IsDigit(n)
    ensures Probe(PRegex(PatternParts(m, n), false, false), 1) == Success("[0-9]")
    ensures Probe(PRegex(PatternParts(m, n), false, false), 2) == Success("[0-9]-")
    ensures Probe(PRegex(PatternParts(m, n), false, false), 3) == Failure(TypeError)
  {
    var parts := PatternParts(m, n);
    var p := PRegex(parts, false, false);
    UnboundedRendersBare(Part("[0-9]", Int(DigitValue(m)), Unset));
    UnsetRendersBare(Part("-", Unset, Unset));
    assert Texts(parts[..0]) == Success("");
    TextsExtend(parts, 0, "");
    assert "" + "[0-9]" == "[0-9]";
    TextsExtend(parts, 1, "[0-9]");
    assert Anchored(p, "[0-9]") == "[0-9]";
    assert Anchored(p, "[0-9]" + "-") == "[0-9]-";
    ProbeHole(p, 2, 3);
  }

  /** So any value in which the first pattern `[0-9]` finds a match is
      accepted at the first iteration, whatever follows: with `m` = 3 and
      `n` = 2, `"123-456"` matches. */
  lemma PatternAcceptsAnyDigit(m: char, n: char, value: string, test: (string, string) -> Result<bool>)
    requires IsDigit(m) && IsDigit(n)
    requires test("[0-9]", value) == Success(true)
    ensures Search(Compile(Pattern(m, n)), value, test, 1) == Success(true)
  {
    CompilePattern(m, n);
    PatternProbes(m, n);
    SearchStep(PRegex(PatternParts(m, n), false, false), value, test, 1, "[0-9]");
  }
}

=== FILE: pregex_match.dfy ===
/** `PRegex.IsMatch` and `PRegex.ToString`: the pattern strings built from
    successively longer prefixes of the parts, and the progressive test. The
    platform `RegExp` is a parameter: `test(pattern, value)` is the outcome of
    `new RegExp(pattern).test(value)`, which fails with `SyntaxError` when the
    pattern does not compile. */
module PRegexMatch {
  import opened JsValues
  import opened PRegexPart
  import opened PRegexParse

  /** The concatenated texts of `parts`, or a `TypeError` for the first slot
      holding `undefined` (calling `ToString` on it throws). */
  function Texts(parts: seq<Option<Part>>): (r: Result<string>)
    ensures r.Failure? <==> None in parts
    ensures r.Failure? ==> r.error == TypeError
  {
    if parts == [] then Success("")
    else
      var init := parts[..|parts| - 1];
      assert parts == init + [parts[|parts| - 1]];
      match Texts(init)
      case Failure(e) => Failure(e)
      case Success(t) =>
        match parts[|parts| - 1]
        case None => Failure(TypeError)
        case Some(p) => Success(t + Text(p))
  }

  function StartText(p: PRegex): string { if p.startFlagSet then "^" else "" }

  function EndText(p: PRegex): string { if p.endFlagSet then "$" else "" }

  /** The pattern text with the anchors the constructor recorded. */
  function Anchored(p: PRegex, body: string): string
  {
    StartText(p) + body + EndText(p)
  }

  /** The pattern `IsMatch` builds from the first `k` parts. */
  function Probe(p: PRegex, k: nat): (r: Result<string>)
    requires k <= |p.parts|
    ensures r.Failure? <==> None in p.parts[..k]
  {
    match Texts(p.parts[..k])
    case Failure(e) => Failure(e)
    case Success(t) => Success(Anchored(p, t))
  }

  /** What iteration `k` (1-based) of `IsMatch` yields: the exception of
      building or compiling its pattern, or the test result. */
  function Outcome(p: PRegex, value: string, test: (string, string) -> Result<bool>, k: nat): Result<bool>
    requires 1 <= k <= |p.parts|
  {
    match Probe(p, k)
    case Failure(e) => Failure(e)
    case Success(pattern) => test(pattern, value)
  }

  /** Reference for the progressive test: the outcome of the first
      iteration from `k` on that does not test false, or false when there is
      none. */
  function Search(p: PRegex, value: string, test: (string, string) -> Result<bool>, k: nat): Result<bool>
    requires 1 <= k <= |p.parts| + 1
    decreases |p.parts| + 1 - k
  {
    if k > |p.parts| then Success(false)
    else
      var o := Outcome(p, value, test, k);
      if o == Success(false) then Search(p, value, test, k + 1) else o
  }

  /** Iteration `k` is the one that ends the loop: every earlier iteration
      from `from` on tested false and this one did not (it matched or threw). */
  predicate Decisive(p: PRegex, value: string, test: (string, string) -> Result<bool>, from: nat, k: nat)
    requires 1 <= from <= k <= |p.parts|
  {
    && Outcome(p, value, test, k) != Success(false)
    && forall j :: from <= j < k ==> Outcome(p, value, test, j) == Success(false)
  }

  /** One unfolding of the search at an iteration that exists. */
  lemma SearchUnfold(p: PRegex, value: string, test: (string, string) -> Result<bool>, k: nat)
    requires 1 <= k <= |p.parts|
    ensures Search(p, value, test, k)
            == if Outcome(p, value, test, k) == Success(false) then Search(p, value, test, k + 1)
               else Outcome(p, value, test, k)
  {
  }

  /** The search answers false exactly when every iteration tests false. */
  lemma {:induction false} SearchFalse(p: PRegex, value: string, test: (string, string) -> Result<bool>, k: nat)
    requires 1 <= k <= |p.parts| + 1
    decreases |p.parts| + 1 - k
    ensures Search(p, value, test, k) == Success(false) <==>
              forall j :: k <= j <= |p.parts| ==> Outcome(p, value, test, j) == Success(false)
  {
    if k <= |p.parts| {
      SearchFalse(p, value, test, k + 1);
      SearchUnfold(p, value, test, k);
      if Outcome(p, value, test, k) == Success(false) && Search(p, value, test, k) == Success(false) {
        forall j | k <= j <= |p.parts|
          ensures Outcome(p, value, test, j) == Success(false)
        {
          if j != k {
            assert k + 1 <= j;
          }
        }
      }
    }
  }

  /** Any other answer is the outcome of the deciding iteration. */
  lemma {:induction false} SearchDecides(p: PRegex, value: string, test: (string, string) -> Result<bool>, k: nat)
    requires 1 <= k <= |p.parts| + 1
    requires Search(p, value, test, k) != Success(false)
    decreases |p.parts| + 1 - k
    ensures exists j :: k <= j <= |p.parts| && Decisive(p, value, test, k, j)
                        && Search(p, value, test, k) == Outcome(p, value, test, j)
  {
    if Outcome(p, value, test, k) == Success(false) {
      SearchDecides(p, value, test, k + 1);
      var j :| k + 1 <= j <= |p.parts| && Decisive(p, value, test, k + 1, j)
               && Search(p, value, test, k + 1) == Outcome(p, value, test, j);
      DecisiveEarlier(p, value, test, k, j);
    } else {
      assert Decisive(p, value, test, k, k);
    }
  }

  lemma DecisiveEarlier(p: PRegex, value: string, test: (string, string) -> Result<bool>, k: nat, j: nat)
    requires 1 <= k < j <= |p.parts|
    requires Outcome(p, value, test, k) == Success(false) && Decisive(p, value, test, k + 1, j)
    ensures Decisive(p, value, test, k, j)
  {
  }

  /** One iteration of the search: stop at an outcome other than false. */
  lemma SearchStep(p: PRegex, value: string, test: (string, string) -> Result<bool>, k: nat, pattern: string)
    requires 1 <= k <= |p.parts| && Probe(p, k) == Success(pattern)
    ensures Outcome(p, value, test, k) == test(pattern, value)
    ensures test(pattern, value) == Success(false) ==> Search(p, value, test, k) == Search(p, value, test, k + 1)
    ensures test(pattern, value) != Success(false) ==> Search(p, value, test, k) == test(pattern, value)
  {
  }

  /** A hole ends the search with a `TypeError`. */
  lemma SearchHole(p: PRegex, value: string, test: (string, string) -> Result<bool>, k: nat)
    requires 1 <= k <= |p.parts| && p.parts[k - 1] == None
    ensures Search(p, value, test, k) == Failure(TypeError)
  {
    ProbeHole(p, k - 1, k);
  }

  lemma TextsExtend(parts: seq<Option<Part>>, i: nat, t: string)
    requires i < |parts| && Texts(parts[..i]) == Success(t) && parts[i].Some?
    ensures Texts(parts[..i + 1]) == Success(t + Text(parts[i].value))
  {
    var q := parts[..i + 1];
    assert q[..|q| - 1] == parts[..i];
    assert q[|q| - 1] == parts[i];
  }

  /** One more part extends the unanchored pattern text by that part's text. */
  lemma ProbeExtend(p: PRegex, i: nat, t: string, x: Part)
    requires i < |p.parts| && Texts(p.parts[..i]) == Success(t) && p.parts[i] == Some(x)
    ensures Texts(p.parts[..i + 1]) == Success(t + Text(x))
    ensures Probe(p, i + 1) == Success((StartText(p) + t + Text(x)) + EndText(p))
  {
    var u := t + Text(x);
    TextsExtend(p.parts, i, t);
    assert Probe(p, i + 1) == Success(Anchored(p, u));
    AppendAssoc(StartText(p), t, Text(x));
  }

  /** A slot holding `undefined` makes every longer pattern throw. */
  lemma ProbeHole(p: PRegex, i: nat, k: nat)
    requires i < k <= |p.parts| && p.parts[i] == None
    ensures Probe(p, k) == Failure(TypeError)
  {
    assert p.parts[..k][i] == None;
  }

  /** `IsMatch(valueString)`: tests the anchored pattern of the first k parts
      for k = 1, 2, ... and stops at the first iteration that does not test
      false. With no parts it answers false without testing anything. */
  method IsMatch(p: PRegex, value: string, test: (string, string) -> Result<bool>) returns (r: Result<bool>)
    ensures r == Search(p, value, test, 1)
    ensures |p.parts| == 0 ==> r == Success(false)
  {
    var matched := false;
    var regexString := StartText(p);
    var i := 0;
    while i < |p.parts| && !matched
      invariant 0 <= i <= |p.parts|
      invariant Texts(p.parts[..i]).Success?
      invariant regexString == StartText(p) + Texts(p.parts[..i]).value
      invariant !matched ==> Search(p, value, test, 1) == Search(p, value, test, i + 1)
      invariant matched ==> Search(p, value, test, 1) == Success(true)
    {
      var t := Texts(p.parts[..i]).value;
      match p.parts[i]
      case None =>
        SearchHole(p, value, test, i + 1);
        return Failure(TypeError);
      case Some(part) =>
        ProbeExtend(p, i, t, part);
        var x := Text(part);
        AppendAssoc(StartText(p), t, x);
        regexString := regexString + x;
        var finalRegexString := regexString + EndText(p);
        var outcome := test(finalRegexString, value);
        SearchStep(p, value, test, i + 1, finalRegexString);
        if outcome.Failure? {
          return Failure(outcome.error);
        }
        matched := outcome.value;
        i := i + 1;
    }
    r := Success(matched);
  }

  /** The answer of `IsMatch` is false exactly when every iteration tests
      false, and otherwise the outcome of the first iteration that does not. */
  lemma IsMatchAnswer(p: PRegex, value: string, test: (string, string) -> Result<bool>)
    ensures Search(p, value, test, 1) == Success(false) <==>
              forall k :: 1 <= k <= |p.parts| ==> Outcome(p, value, test, k) == Success(false)
    ensures Search(p, value, test, 1) != Success(false) ==>
              exists k :: 1 <= k <= |p.parts| && Decisive(p, value, test, 1, k)
                          && Search(p, value, test, 1) == Outcome(p, value, test, k)
  {
    SearchFalse(p, value, test, 1);
    if Search(p, value, test, 1) != Success(false) {
      SearchDecides(p, value, test, 1);
    }
  }

  /** When every iteration from `k` up to the last tests false, the search
      from `k` is decided by the last iteration alone. */
  lemma {:induction false} SearchReachesLast(p: PRegex, value: string, test: (string, string) -> Result<bool>, k: nat)
    requires 1 <= k <= |p.parts|
    requires forall j :: k <= j < |p.parts| ==> Outcome(p, value, test, j) == Success(false)
    decreases |p.parts| - k
    ensures Search(p, value, test, k) == Outcome(p, value, test, |p.parts|)
  {
    SearchUnfold(p, value, test, k);
    if k < |p.parts| {
      assert Outcome(p, value, test, k) == Success(false);
      SearchReachesLast(p, value, test, k + 1);
    } else {
      SearchPastEnd(p, value, test);
    }
  }

  /** Past the last iteration the search answers false. */
  lemma SearchPastEnd(p: PRegex, value: string, test: (string, string) -> Result<bool>)
    ensures Search(p, value, test, |p.parts| + 1) == Success(false)
  {
  }

  /** The last iteration of `IsMatch` tests the very string `ToString`
      returns, and when every earlier iteration tested false, that test is
      the answer. */
  lemma LastProbeIsToString(p: PRegex, value: string, test: (string, string) -> Result<bool>, s: string)
    requires |p.parts| >= 1 && Probe(p, |p.parts|) == Success(s)
    ensures Outcome(p, value, test, |p.parts|) == test(s, value)
    ensures (forall j :: 1 <= j < |p.parts| ==> Outcome(p, value, test, j) == Success(false)) ==>
              Search(p, value, test, 1) == test(s, value)
  {
    if forall j :: 1 <= j < |p.parts| ==> Outcome(p, value, test, j) == Success(false) {
      SearchReachesLast(p, value, test, 1);
    }
  }

  /** `PRegex.ToString()`: the anchored concatenation of all the part texts,
      or a `TypeError` when a slot holds `undefined`. */
  method ToString(p: PRegex) returns (r: Result<string>)
    ensures r == Probe(p, |p.parts|)
    ensures r.Failure? <==> None in p.parts
  {
    var regexString := StartText(p);
    var i := 0;
    while i < |p.parts|
      invariant 0 <= i <= |p.parts|
      invariant Texts(p.parts[..i]).Success?
      invariant regexString == StartText(p) + Texts(p.parts[..i]).value
    {
      var t := Texts(p.parts[..i]).value;
      match p.parts[i]
      case None =>
        ProbeHole(p, i, |p.parts|);
        return Failure(TypeError);
      case Some(part) =>
        ProbeExtend(p, i, t, part);
        var x := Text(part);
        AppendAssoc(StartText(p), t, x);
        regexString := regexString + x;
        i := i + 1;
    }
    assert p.parts[..i] == p.parts[..|p.parts|];
    ghost var whole := StartText(p) + Texts(p.parts[..i]).value;
    if p.endFlagSet {
      regexString := regexString + "$";
    } else {
      assert whole + EndText(p) == whole;
    }
    r := Success(regexString);
  }
}

=== FILE: pregex_match_facts.dfy ===
/** What `IsMatch` and `ToString` do with the patterns the constructor builds. */
module PRegexMatchFacts {
  import opened JsValues
  import opened JsString
  import opened PRegexPart
  import opened PRegexParse
  import opened PRegexParseFacts
  import opened PRegexMatch

  /** The texts of two runs of parts, one after the other. */
  lemma {:induction false} TextsAppend(a: seq<Option<Part>>, b: seq<Option<Part>>)
    requires None !in a && None !in b
    decreases |b|
    ensures None !in a + b
    ensures Texts(a + b) == Success(Texts(a).value + Texts(b).value)
  {
    if b == [] {
      assert a + b == a;
      assert Texts(a).value + Texts(b).value == Texts(a).value;
    } else {
      var init := b[..|b| - 1];
      assert (a + b)[..|a + b| - 1] == a + init;
      assert None !in init by {
        forall i | 0 <= i < |init| ensures init[i] != None { assert init[i] == b[i]; }
      }
      TextsAppend(a, init);
      AppendAssoc(Texts(a).value, Texts(init).value, Text(b[|b| - 1].value));
    }
  }

  lemma TextsSingle(x: Part)
    ensures Texts([Some(x)]) == Success(Text(x))
  {
    assert [Some(x)][..0] == [];
    assert "" + Text(x) == Text(x);
  }

  /** `s` without its anchor characters. */
  function Bare(s: string): (r: string)
    ensures '^' !in r && '$' !in r
  {
    if s == [] then [] else (if IsAnchor(s[0]) then [] else [s[0]]) + Bare(s[1..])
  }

  lemma BareStep(s: string)
    requires s != []
    ensures Bare(s) == (if IsAnchor(s[0]) then [] else [s[0]]) + Bare(s[1..])
  {
  }

  /** Each literal part renders as its own character, so the parts of a solo
      text render as the text without its anchors. */
  lemma {:induction false} TextsOfLiteralParts(s: string)
    requires AllSolo(s)
    ensures None !in LiteralParts(s)
    ensures Texts(LiteralParts(s)) == Success(Bare(s))
  {
    if s != [] {
      var head: seq<Option<Part>> := if IsAnchor(s[0]) then [] else [Some(Part([s[0]], Unset, Unset))];
      LiteralPartsStep(s);
      BareStep(s);
      assert AllSolo(s[1..]);
      TextsOfLiteralParts(s[1..]);
      if !IsAnchor(s[0]) {
        UnsetRendersBare(Part([s[0]], Unset, Unset));
        TextsSingle(Part([s[0]], Unset, Unset));
      } else {
        assert Texts(head) == Success([]);
      }
      TextsAppend(head, LiteralParts(s[1..]));
    }
  }

  /** `new PRegex(s).ToString()` for a solo text: the anchors the text holds,
      put back at the ends, around the text without its anchors. */
  lemma RenderSolo(s: string)
    requires AllSolo(s)
    ensures var p := Compile(s);
            Probe(p, |p.parts|)
            == Success((if '^' in s then "^" else "") + Bare(s) + (if '$' in s then "$" else ""))
  {
    CompileSolo(s);
    TextsOfLiteralParts(s);
    var p := Compile(s);
    assert p.parts[..|p.parts|] == p.parts;
  }

  lemma BareOfPlain(t: string)
    requires '^' !in t && '$' !in t
    ensures Bare(t) == t
  {
    if t != [] {
      BareOfPlain(t[1..]);
    }
  }

  /** Round trip: a pattern of plain characters with an optional leading `^`
      and trailing `$` renders back as itself. */
  lemma PlainPatternRoundTrip(t: string, start: bool, end: bool)
    requires AllSolo(t) && '^' !in t && '$' !in t
    ensures var s := (if start then "^" else "") + t + (if end then "$" else "");
            var p := Compile(s);
            Probe(p, |p.parts|) == Success(s)
  {
    var pre, post := (if start then "^" else ""), (if end then "$" else "");
    var s := pre + t + post;
    AnchorsAround(t, start, end);
    RenderSolo(s);
    BareAround(t, start, end);
  }

  /** Dropping the anchors put around a plain text gives the text back. */
  lemma BareAround(t: string, start: bool, end: bool)
    requires '^' !in t && '$' !in t
    ensures Bare((if start then "^" else "") + t + (if end then "$" else "")) == t
  {
    var pre, post := (if start then "^" else ""), (if end then "$" else "");
    BareAppend(pre + t, post);
    BareAppend(pre, t);
    BareOfPlain(t);
    assert Bare(pre) == [] by {
      if start { BareStep(pre); }
    }
    assert Bare(post) == [] by {
      if end { BareStep(post); }
    }
    assert Bare(pre + t) == t;
  }

  /** Putting anchors around a plain solo text keeps it solo, and the result
      holds an anchor exactly when it was put there. */
  lemma AnchorsAround(t: string, start: bool, end: bool)
    requires AllSolo(t) && '^' !in t && '$' !in t
    ensures var s := (if start then "^" else "") + t + (if end then "$" else "");
            AllSolo(s) && ('^' in s) == start && ('$' in s) == end
  {
    var pre, post := (if start then "^" else ""), (if end then "$" else "");
    var s := pre + t + post;
    forall i | 0 <= i < |s| ensures Solo(s[i]) {
      if i < |pre| {
        assert s[i] == '^';
      } else if i < |pre| + |t| {
        assert s[i] == t[i - |pre|];
      } else {
        assert s[i] == '$';
      }
    }
    if start { assert s[0] == '^'; }
    if end { assert s[|s| - 1] == '$'; }
    if !start {
      forall i | 0 <= i < |s| ensures s[i] != '^' {
        if i < |t| { assert s[i] == t[i]; }
      }
    }
    if !end {
      forall i | 0 <= i < |s| ensures s[i] != '$' {
        if i >= |pre| { assert s[i] == t[i - |pre|]; }
      }
    }
  }

  /** Dropping anchors distributes over concatenation. */
  lemma {:induction false} BareAppend(a: string, b: string)
    ensures Bare(a + b) == Bare(a) + Bare(b)
  {
    if a == [] {
      assert a + b == b;
    } else {
      assert (a + b)[0] == a[0] && (a + b)[1..] == a[1..] + b;
      BareStep(a + b);
      BareStep(a);
      BareAppend(a[1..], b);
      AppendAssoc(if IsAnchor(a[0]) then [] else [a[0]], Bare(a[1..]), Bare(b));
    }
  }

  /** A blank pattern has no parts, so `IsMatch` answers false without testing. */
  lemma BlankPatternMatchesNothing(s: string, value: string, test: (string, string) -> Result<bool>)
    requires Trim(s) == ""
    ensures Search(Compile(s), value, test, 1) == Success(false)
  {
  }

  /** An escaped special character at the very end leaves a hole in front of
      its part, so the first iteration of `IsMatch` and `ToString` both throw. */
  lemma TrailingEscapeThrows(c: char, value: string, test: (string, string) -> Result<bool>)
    requires IsSpecial(c)
    ensures Search(Compile(['\\', c]), value, test, 1) == Failure(TypeError)
    ensures |Compile(['\\', c]).parts| == 2 && Probe(Compile(['\\', c]), 2) == Failure(TypeError)
  {
    CompileEscapedSpecial(c);
    SearchHole(Compile(['\\', c]), value, test, 1);
    ProbeHole(Compile(['\\', c]), 0, 2);
  }
}

=== FILE: pregex_parse.dfy ===
/** The `PRegex` constructor: a single left-to-right pass over the trimmed
    pattern text that emits `PRegexPart`s and records the `^`/`$` anchors. */
module PRegexParse {
  import opened JsValues
  import opened JsString
  import opened PRegexPart

  /** A compiled pattern. `parts[i]` is slot `i` of `pregexParts` (None for a
      slot holding `undefined`) and `|parts|` is `pregexCount`. */
  datatype PRegex = PRegex(parts: seq<Option<Part>>, startFlagSet: bool, endFlagSet: bool)

  /** The variables `_ResetRangeParseVars` resets: whether a `{...}` range is
      open or closed, whether its first number is being read, the (never
      incremented) range count, the comma count, the "value set" flag and the
      digit buffer. */
  datatype RangeVars = RangeVars(
    rangeOpen: bool,
    rangeClosed: bool,
    rangeFirst: bool,
    rangeCount: int,
    rangeCommas: int,
    rangeValueSet: bool,
    rangeValueString: string)

  /** The values `_ResetRangeParseVars` assigns. */
  const IdleRange: RangeVars := RangeVars(false, false, true, 0, 0, false, "")

  /** The constructor's state between two characters: the parts emitted so
      far, the anchor flags, and the underscore-prefixed parse variables. */
  datatype State = State(
    parts: seq<Option<Part>>,
    startFlagSet: bool,
    endFlagSet: bool,
    escaped: bool,
    bracketListOpen: bool,
    bracketListClosed: bool,
    partRegexString: string,
    minimumInstances: Num,
    maximumInstances: Num,
    range: RangeVars)

  /** Every parse variable holds the value `_ResetParseVars` gives it. */
  predicate Fresh(st: State)
  {
    && !st.escaped && !st.bracketListOpen && !st.bracketListClosed
    && st.partRegexString == ""
    && st.minimumInstances == Unset && st.maximumInstances == Unset
    && st.range == IdleRange
  }

  /** Both states have the same parts and anchor flags. */
  predicate SameOutput(a: State, b: State)
  {
    a.parts == b.parts && a.startFlagSet == b.startFlagSet && a.endFlagSet == b.endFlagSet
  }

  /** `_ResetParseVars`: resets every parse variable, keeping the output. */
  function ResetParseVars(st: State): (r: State)
    ensures Fresh(r) && SameOutput(r, st)
  {
    State(st.parts, st.startFlagSet, st.endFlagSet, false, false, false, "", Unset, Unset, IdleRange)
  }

  /** `_MakePRegexPart`: stores a new part at index `pregexCount`, increments
      the count by one and resets all parse state. */
  function MakePart(st: State, value: string, minimumInstances: Num, maximumInstances: Num): (r: State)
    ensures |r.parts| == |st.parts| + 1
    ensures r.parts[..|st.parts|] == st.parts
    ensures r.parts[|st.parts|] == Some(Part(value, minimumInstances, maximumInstances))
    ensures r.startFlagSet == st.startFlagSet && r.endFlagSet == st.endFlagSet
    ensures Fresh(r)
  {
    var parts := st.parts + [Some(Part(value, minimumInstances, maximumInstances))];
    assert parts[..|st.parts|] == st.parts;
    ResetParseVars(st.(parts := parts))
  }

  /** `_MakePRegexPart` on the pending buffer and bounds. */
  function Flush(st: State): (r: State)
    ensures r.parts == st.parts + [Some(Part(st.partRegexString, st.minimumInstances, st.maximumInstances))]
    ensures r.startFlagSet == st.startFlagSet && r.endFlagSet == st.endFlagSet
    ensures EmitsAtMostOne(st, r) && KeepsAnchors(st, r)
    ensures Fresh(r)
  {
    MakePart(st, st.partRegexString, st.minimumInstances, st.maximumInstances)
  }

  /** Extends the pending buffer `_partRegexString`. */
  function Append(st: State, s: string): (r: State)
    ensures SameOutput(r, st) && r.range == st.range
    ensures r.partRegexString == st.partRegexString + s
  {
    st.(partRegexString := st.partRegexString + s)
  }

  /** The range count is zero (the source never increments it) and the range
      digit buffer holds only digits. */
  predicate RangeSane(rv: RangeVars)
  {
    rv.rangeCount == 0 && AllDigits(rv.rangeValueString)
  }

  /** The parts of `after` are those of `before`, possibly followed by one new part. */
  predicate EmitsAtMostOne(before: State, after: State)
  {
    && |before.parts| <= |after.parts| <= |before.parts| + 1
    && after.parts[..|before.parts|] == before.parts
    && None !in after.parts[|before.parts|..]
  }

  /** Anchor flags, once set, stay set. */
  predicate KeepsAnchors(before: State, after: State)
  {
    (before.startFlagSet ==> after.startFlagSet) && (before.endFlagSet ==> after.endFlagSet)
  }

  /** What every character handler guarantees. */
  predicate Advances(before: State, after: State)
  {
    && EmitsAtMostOne(before, after)
    && KeepsAnchors(before, after)
    && (RangeSane(before.range) ==> RangeSane(after.range))
  }

  /** `\`: toggles the escape flag (except inside a range), flushes a closed
      class or range, and appends the backslash. */
  function Backslash(st: State): (r: State)
    ensures Advances(st, r)
  {
    var toggled := if !st.range.rangeOpen then st.(escaped := !st.escaped) else st;
    var flushed :=
      if toggled.bracketListClosed || toggled.range.rangeClosed then Flush(toggled) else toggled;
    Append(flushed, "\\")
  }

  /** `[`: opens a class, or appends `\[` inside an open one; a closed class
      is flushed first. */
  function OpenBracket(st: State): (r: State)
    ensures Advances(st, r)
  {
    if st.escaped then Append(st.(escaped := false), "[")
    else
      var flushed := if st.bracketListClosed then Flush(st) else st;
      if !flushed.bracketListOpen then Append(flushed, "[").(bracketListOpen := true)
      else Append(flushed, "\\[")
  }

  /** `]`: closes an open class; dropped when no class is open. */
  function CloseBracket(st: State): (r: State)
    ensures Advances(st, r)
  {
    if st.escaped then Append(st.(escaped := false), "]")
    else if st.bracketListOpen then
      Append(st.(bracketListOpen := false, bracketListClosed := true), "]")
    else st
  }

  /** `*`, `+` or `?` (`q`): inside a range the text `fill` is appended first;
      then, since the range count is never non-zero, the buffer followed by
      `q` is emitted as a part with the pending bounds. */
  function QuantifierChar(st: State, q: char, fill: string): (r: State)
    ensures Advances(st, r)
  {
    if st.escaped then Append(st.(escaped := false), [q])
    else if st.range.rangeOpen && st.range.rangeCount == 0 then
      EmitQuantifier(Append(st, fill).(range := st.range.(rangeValueSet := true)), q)
    else EmitQuantifier(st, q)
  }

  function EmitQuantifier(st: State, q: char): (r: State)
    ensures Advances(st, r)
    ensures RangeSane(st.range) ==>
              && r.parts == st.parts + [Some(Part(st.partRegexString + [q], st.minimumInstances, st.maximumInstances))]
              && r.startFlagSet == st.startFlagSet && r.endFlagSet == st.endFlagSet
              && Fresh(r)
  {
    if st.range.rangeClosed || st.range.rangeCount == 0 then Flush(Append(st, [q])) else st
  }

  /** `{`: opens a range; a closed class stays in the buffer, no longer marked closed. */
  function OpenRange(st: State): (r: State)
    ensures Advances(st, r)
  {
    if st.escaped then Append(st.(escaped := false), "{")
    else if !st.range.rangeOpen then
      st.(bracketListClosed := false, range := IdleRange.(rangeOpen := true))
    else st
  }

  /** `}`: closes a range, storing the parsed digits as the minimum when no
      comma was seen and as the maximum otherwise; outside a range it is
      literal text. */
  function CloseRange(st: State): (r: State)
    ensures Advances(st, r)
  {
    if st.escaped then Append(st.(escaped := false), "}")
    else if st.range.rangeOpen then
      var bound := ParseInt(st.range.rangeValueString);
      var bounded :=
        if st.range.rangeFirst then st.(minimumInstances := bound)
        else st.(maximumInstances := bound);
      bounded.(range := IdleRange.(rangeClosed := true))
    else Append(st, "}")
  }

  /** A character inside an open range: digits accumulate, the first comma
      commits the minimum, anything else is ignored. */
  function RangeChar(st: State, c: char): (r: State)
    ensures Advances(st, r)
  {
    var rv := st.range;
    if '0' <= c <= '9' && !rv.rangeValueSet then
      st.(range := rv.(rangeValueString := rv.rangeValueString + [c]))
    else if c == ',' && rv.rangeCommas == 0 then
      st.(minimumInstances := ParseInt(rv.rangeValueString),
          range := rv.(rangeCommas := 1, rangeFirst := false, rangeValueString := ""))
    else st
  }

  /** Any other character. The flag is the source's `i--`: the character is
      read again after a pending class or range has been flushed. */
  function OtherChar(st: State, c: char): (r: (State, bool))
    ensures r.1 ==> (st.bracketListClosed || st.range.rangeClosed) && r.0 == Flush(st)
    ensures Advances(st, r.0)
  {
    if st.escaped then (Flush(Append(st.(escaped := false), [c])), false)
    else if st.bracketListClosed || st.range.rangeClosed then (Flush(st), true)
    else if st.range.rangeOpen then (RangeChar(st, c), false)
    else if st.bracketListOpen then (Append(st, [c]), false)
    else if c == '^' then (st.(startFlagSet := true), false)
    else if c == '$' then (st.(endFlagSet := true), false)
    else (MakePart(st, [c], Unset, Unset), false)
  }

  /** Pending: a closed class or range waits to be flushed. */
  predicate Pending(st: State)
  {
    st.bracketListClosed || st.range.rangeClosed
  }

  /** One iteration of the constructor's `switch`. The boolean is `true` when
      the source's `i--` re-reads the character; that happens only while a
      closed class or range is pending, and the flush clears both flags. */
  function Step(st: State, c: char): (r: (State, bool))
    ensures r.1 ==> Pending(st) && !Pending(r.0) && r.0 == Flush(st)
    ensures Advances(st, r.0)
  {
    match c
    case '\\' => (Backslash(st), false)
    case '[' => (OpenBracket(st), false)
    case ']' => (CloseBracket(st), false)
    case '*' => (QuantifierChar(st, '*', if st.range.rangeFirst then "0" else ""), false)
    case '+' => (QuantifierChar(st, '+', if st.range.rangeFirst then "1" else ""), false)
    case '?' => (QuantifierChar(st, '?', if st.range.rangeFirst then "0" else "1"), false)
    case '{' => (OpenRange(st), false)
    case '}' => (CloseRange(st), false)
    case _ => OtherChar(st, c)
  }

  /** The constructor's `for` loop over the rest `s` of the text. A re-read
      keeps `s` but clears the pending flags, so (`|s|`, pending) decreases. */
  function Run(s: string, st: State): State
    decreases |s|, if Pending(st) then 1 else 0
  {
    if s == [] then st
    else
      var step := Step(st, s[0]);
      if step.1 then Run(s, step.0) else Run(s[1..], step.0)
  }

  /** The loop never changes or removes a part it has already emitted. */
  lemma {:induction false} RunKeepsParts(s: string, st: State)
    decreases |s|, if Pending(st) then 1 else 0
    ensures st.parts <= Run(s, st).parts
  {
    if s != [] {
      var step := Step(st, s[0]);
      RunKeepsParts(if step.1 then s else s[1..], step.0);
    }
  }

  lemma AppendedSlots(a: seq<Option<Part>>, b: seq<Option<Part>>, c: seq<Option<Part>>)
    requires a <= b <= c
    requires None !in b[|a|..] && None !in c[|b|..]
    ensures None !in c[|a|..]
  {
    assert c[|a|..] == b[|a|..] + c[|b|..];
  }

  /** Every slot the loop appends holds a part (never `undefined`). */
  lemma {:induction false} RunAppendsParts(s: string, st: State)
    decreases |s|, if Pending(st) then 1 else 0
    ensures |st.parts| <= |Run(s, st).parts|
    ensures None !in Run(s, st).parts[|st.parts|..]
  {
    if s != [] {
      var step := Step(st, s[0]);
      var next := step.0;
      var rest := if step.1 then s else s[1..];
      var r := Run(rest, next);
      assert Run(s, st) == r;
      RunAppendsParts(rest, next);
      RunKeepsParts(rest, next);
      AppendedSlots(st.parts, next.parts, r.parts);
    }
  }

  /** Anchor flags, once set, stay set, and the range variables stay sane:
      the range count remains zero and the digit buffer holds only digits. */
  lemma {:induction false} RunKeepsInvariants(s: string, st: State)
    decreases |s|, if Pending(st) then 1 else 0
    ensures KeepsAnchors(st, Run(s, st))
    ensures RangeSane(st.range) ==> RangeSane(Run(s, st).range)
  {
    if s != [] {
      var step := Step(st, s[0]);
      RunKeepsInvariants(if step.1 then s else s[1..], step.0);
    }
  }

  /** The state the constructor starts from. */
  const Initial: State := State([], false, false, false, false, false, "", Unset, Unset, IdleRange)

  /** The end-of-input flush: `this.pregexParts[this.pregexCount++] =
      this._MakePRegexPart(...)` reserves the slot at the old count, lets
      `_MakePRegexPart` store the part in the next slot, then fills the
      reserved slot with the `undefined` that `_MakePRegexPart` returns. */
  function Finish(st: State): (p: PRegex)
    ensures p.startFlagSet == st.startFlagSet && p.endFlagSet == st.endFlagSet
    ensures st.partRegexString == "" ==> p.parts == st.parts
    ensures st.partRegexString != "" ==>
              |p.parts| == |st.parts| + 2 && p.parts[..|st.parts|] == st.parts
              && p.parts[|st.parts|] == None
              && p.parts[|st.parts| + 1]
                 == Some(Part(st.partRegexString, st.minimumInstances, st.maximumInstances))
  {
    if |st.partRegexString| > 0 then
      var reserved := st.(parts := st.parts + [None]);
      var flushed := MakePart(reserved, st.partRegexString, st.minimumInstances, st.maximumInstances);
      assert flushed.parts[..|reserved.parts|] == reserved.parts;
      assert flushed.parts[..|st.parts|] == reserved.parts[..|st.parts|] == st.parts;
      assert flushed.parts[|st.parts|] == None;
      PRegex(flushed.parts, flushed.startFlagSet, flushed.endFlagSet)
    else PRegex(st.parts, st.startFlagSet, st.endFlagSet)
  }

  /** `new PRegex(regexString)`: trims the text and, when something is left,
      runs the loop and the end-of-input flush. A slot holding `undefined` can
      only be the one just before the last part. */
  function Compile(regexString: string): (p: PRegex)
    ensures Trim(regexString) == "" ==> p == PRegex([], false, false)
    ensures forall i :: 0 <= i < |p.parts| && p.parts[i].None? ==>
              i == |p.parts| - 2 && p.parts[i + 1].Some?
  {
    var text := Trim(regexString);
    if |text| > 0 then
      RunKeepsParts(text, Initial);
      RunAppendsParts(text, Initial);
      Finish(Run(text, Initial))
    else PRegex([], false, false)
  }
}

=== FILE: pregex_parse_facts.dfy ===
/** What the `PRegex` constructor does with each kind of character, and
    what it builds for whole families of pattern texts. */
module PRegexParseFacts {
  import opened JsValues
  import opened JsString
  import opened PRegexPart
  import opened PRegexParse

  /** Running over `a + b` is running over `a`, then over `b`: a re-read never
      reaches back past a character boundary. */
  lemma {:induction false} RunConcat(a: string, b: string, st: State)
    decreases |a|, if Pending(st) then 1 else 0
    ensures Run(a + b, st) == Run(b, Run(a, st))
  {
    if a == [] {
      assert a + b == b;
    } else {
      assert (a + b)[0] == a[0];
      var step := Step(st, a[0]);
      if step.1 {
        RunConcat(a, b, step.0);
      } else {
        assert (a + b)[1..] == a[1..] + b;
        RunConcat(a[1..], b, step.0);
      }
    }
  }

  // ---------------------------------------------------------------------
  // Characters outside any class or range
  // ---------------------------------------------------------------------

  /** The characters with a case of their own in the constructor's `switch`. */
  predicate IsSpecial(c: char)
  {
    c == '\\' || c == '[' || c == ']' || c == '*' || c == '+' || c == '?' || c == '{' || c == '}'
  }

  /** A character that, read with no class, range or escape pending, becomes a
      part of its own (or sets an anchor): anything but `\`, brackets, braces
      and white space. The quantifier characters `*`, `+`, `?` are included:
      with nothing pending they are emitted as parts by themselves. */
  predicate Solo(c: char)
  {
    c != '\\' && c != '[' && c != ']' && c != '{' && c != '}' && !IsWhiteSpace(c)
  }

  predicate AllSolo(s: string) { forall i :: 0 <= i < |s| ==> Solo(s[i]) }

  predicate IsAnchor(c: char) { c == '^' || c == '$' }

  /** Reference for a text of solo characters: one unquantified one-character
      part per character, anchors excepted. */
  function LiteralParts(s: string): seq<Option<Part>>
  {
    if s == [] then []
    else (if IsAnchor(s[0]) then [] else [Some(Part([s[0]], Unset, Unset))]) + LiteralParts(s[1..])
  }

  /** What one solo character does to a state with nothing pending: `^` and
      `$` only set `startFlagSet` / `endFlagSet`; any other character becomes
      a one-character part with bounds (-1, -1). */
  function SoloNext(st: State, c: char): State
  {
    if c == '^' then st.(startFlagSet := true)
    else if c == '$' then st.(endFlagSet := true)
    else st.(parts := st.parts + [Some(Part([c], Unset, Unset))])
  }

  /** With nothing pending, an unescaped solo character is handled at once, as
      `SoloNext` says, and never re-read. The quantifier characters included:
      with an empty buffer they emit themselves. */
  lemma StepSolo(st: State, c: char)
    requires Fresh(st) && Solo(c)
    ensures Step(st, c) == (SoloNext(st, c), false)
  {
    if c == '*' || c == '+' || c == '?' {
      assert st.partRegexString + [c] == [c];
      assert Step(st, c) == (Flush(Append(st, [c])), false);
    } else if IsAnchor(c) {
      AnchorOnlySetsFlag(st, c);
    } else {
      OrdinaryCharDiscardsBuffer(st, c);
    }
  }

  lemma RunSoloStep(s: string, st: State)
    requires Fresh(st) && AllSolo(s) && s != []
    ensures Run(s, st) == Run(s[1..], SoloNext(st, s[0]))
  {
    StepSolo(st, s[0]);
  }

  lemma LiteralPartsStep(s: string)
    requires s != []
    ensures LiteralParts(s)
            == (if IsAnchor(s[0]) then [] else [Some(Part([s[0]], Unset, Unset))]) + LiteralParts(s[1..])
  {
  }

  lemma SoloNextParts(s: string, st: State)
    requires s != []
    ensures st.parts + LiteralParts(s) == SoloNext(st, s[0]).parts + LiteralParts(s[1..])
  {
    LiteralPartsStep(s);
    var tail := LiteralParts(s[1..]);
    var head: seq<Option<Part>> := if IsAnchor(s[0]) then [] else [Some(Part([s[0]], Unset, Unset))];
    assert SoloNext(st, s[0]).parts == st.parts + head;
    AppendAssoc(st.parts, head, tail);
  }

  /** Over a text of solo characters, with nothing pending, the loop appends
      the reference parts and leaves the parse variables at their reset values. */
  lemma {:induction false} RunSoloParts(s: string, st: State)
    requires Fresh(st) && AllSolo(s)
    ensures Fresh(Run(s, st))
    ensures Run(s, st).parts == st.parts + LiteralParts(s)
  {
    if s != [] {
      var n := SoloNext(st, s[0]);
      assert Fresh(n) && AllSolo(s[1..]);
      RunSoloStep(s, st);
      RunSoloParts(s[1..], n);
      SoloNextParts(s, st);
    }
  }

  /** Over a text of solo characters, an anchor flag ends up set exactly when
      it was set before or the text holds that anchor character anywhere. */
  lemma {:induction false} RunSoloFlags(s: string, st: State)
    requires Fresh(st) && AllSolo(s)
    ensures Run(s, st).startFlagSet == (st.startFlagSet || '^' in s)
    ensures Run(s, st).endFlagSet == (st.endFlagSet || '$' in s)
  {
    if s != [] {
      var n := SoloNext(st, s[0]);
      assert Fresh(n) && AllSolo(s[1..]);
      assert n.startFlagSet == (st.startFlagSet || s[0] == '^');
      assert n.endFlagSet == (st.endFlagSet || s[0] == '$');
      RunSoloStep(s, st);
      RunSoloFlags(s[1..], n);
      assert s == [s[0]] + s[1..];
      assert ('^' in s) == (s[0] == '^' || '^' in s[1..]);
      assert ('$' in s) == (s[0] == '$' || '$' in s[1..]);
    }
  }

  /** Text without white space whose run ends with an empty buffer compiles
      to exactly the parts and flags of the run: there is nothing to flush. */
  lemma CompileOfSettledRun(s: string)
    requires s != [] && NoWhiteSpace(s) && Run(s, Initial).partRegexString == ""
    ensures var r := Run(s, Initial);
            Compile(s) == PRegex(r.parts, r.startFlagSet, r.endFlagSet)
  {
    TrimKeepsPlainText(s);
  }

  /** A pattern text made of solo characters compiles to one unquantified part
      per character, with the anchors recorded as flags. So `a+` gives the
      parts `a` and `+`, not a quantified `a`. */
  lemma CompileSolo(s: string)
    requires AllSolo(s)
    ensures Compile(s) == PRegex(LiteralParts(s), '^' in s, '$' in s)
  {
    if s == [] {
      TrimKeepsPlainText(s);
    } else {
      RunSoloParts(s, Initial);
      RunSoloFlags(s, Initial);
      assert [] + LiteralParts(s) == LiteralParts(s);
      CompileOfSettledRun(s);
    }
  }

  // ---------------------------------------------------------------------
  // Escapes
  // ---------------------------------------------------------------------

  /** An escaped `[ ] * + ? { }` only extends the buffer and clears the escape:
      the class and range flags, the bounds and the parts are untouched. */
  lemma EscapedSpecialExtendsBuffer(st: State, c: char)
    requires st.escaped && IsSpecial(c) && c != '\\'
    ensures Step(st, c) == (Append(st.(escaped := false), [c]), false)
  {
  }

  /** An escaped ordinary character completes the pending buffer, which is
      emitted as a part with the pending bounds. */
  lemma EscapedOrdinaryEmits(st: State, c: char)
    requires st.escaped && !IsSpecial(c)
    ensures Step(st, c).0 ==
              MakePart(st, st.partRegexString + [c], st.minimumInstances, st.maximumInstances)
  {
  }

  /** Text without white space is parsed as it stands. */
  lemma CompileOfPlain(s: string)
    requires s != [] && NoWhiteSpace(s)
    ensures Compile(s) == Finish(Run(s, Initial))
  {
    TrimKeepsPlainText(s);
  }

  /** With nothing pending, one character is one step. */
  lemma RunOne(c: char, st: State)
    requires !Pending(st)
    ensures Run([c], st) == Step(st, c).0
  {
    assert [c][1..] == [];
  }

  /** A leading backslash from the initial state sets the escape and starts the buffer. */
  lemma RunBackslashFirst(c: char)
    ensures Run(['\\', c], Initial) == Run([c], Initial.(escaped := true, partRegexString := "\\"))
  {
    assert ['\\', c][1..] == [c];
    assert Step(Initial, '\\').0 == Initial.(escaped := true, partRegexString := "\\");
  }

  /** `\c` for an ordinary (non-white-space) `c` compiles to the single part `\c`. */
  lemma CompileEscapedOrdinary(c: char)
    requires !IsSpecial(c) && !IsWhiteSpace(c)
    ensures Compile(['\\', c]) == PRegex([Some(Part(['\\', c], Unset, Unset))], false, false)
  {
    var st1 := Initial.(escaped := true, partRegexString := "\\");
    CompileOfPlain(['\\', c]);
    RunBackslashFirst(c);
    RunOne(c, st1);
    EscapedOrdinaryEmits(st1, c);
    assert "\\" + [c] == ['\\', c];
  }

  /** `\c` for a special `c` (or a second backslash) never reaches a case that
      emits: the two characters stay in the buffer and the end-of-input flush
      leaves the `undefined` slot in front of the part. */
  lemma CompileEscapedSpecial(c: char)
    requires IsSpecial(c)
    ensures Compile(['\\', c]) == PRegex([None, Some(Part(['\\', c], Unset, Unset))], false, false)
  {
    CompileOfPlain(['\\', c]);
    RunEscapedSpecial(c);
    FinishBufferOnly(['\\', c]);
  }

  /** Text left in the buffer of an otherwise initial state is flushed behind
      an `undefined` slot. */
  lemma FinishBufferOnly(t: string)
    requires t != []
    ensures Finish(Initial.(partRegexString := t)) == PRegex([None, Some(Part(t, Unset, Unset))], false, false)
  {
    var p := Finish(Initial.(partRegexString := t));
    assert |p.parts| == 2 && p.parts[0] == None && p.parts[1] == Some(Part(t, Unset, Unset));
  }

  lemma RunEscapedSpecial(c: char)
    requires IsSpecial(c)
    ensures Run(['\\', c], Initial) == Initial.(partRegexString := ['\\', c])
  {
    var st1 := Initial.(escaped := true, partRegexString := "\\");
    RunBackslashFirst(c);
    RunOne(c, st1);
    SpecialAfterBackslash(c);
  }

  lemma SpecialAfterBackslash(c: char)
    requires IsSpecial(c)
    ensures Step(Initial.(escaped := true, partRegexString := "\\"), c).0
            == Initial.(partRegexString := ['\\', c])
  {
    var st1 := Initial.(escaped := true, partRegexString := "\\");
    assert "\\" + [c] == ['\\', c];
    if c != '\\' {
      EscapedSpecialExtendsBuffer(st1, c);
    }
  }

  // ---------------------------------------------------------------------
  // Bracket classes
  // ---------------------------------------------------------------------

  /** A character a class body may hold without ending or escaping it. */
  predicate ClassChar(c: char) { !IsSpecial(c) }

  predicate AllClassChars(s: string) { forall i :: 0 <= i < |s| ==> ClassChar(s[i]) }

  /** No escape, open class or range, and nothing pending. */
  predicate Quiet(st: State)
  {
    !st.escaped && !st.bracketListOpen && !st.bracketListClosed
    && !st.range.rangeOpen && !st.range.rangeClosed
  }

  lemma {:induction false} RunClassBody(body: string, st: State)
    requires AllClassChars(body)
    requires !st.escaped && st.bracketListOpen && !st.bracketListClosed
    requires !st.range.rangeOpen && !st.range.rangeClosed
    ensures Run(body, st) == Append(st, body)
  {
    if body == [] {
      assert st.partRegexString + body == st.partRegexString;
    } else {
      var next := Step(st, body[0]).0;
      assert next == Append(st, [body[0]]);
      RunClassBody(body[1..], next);
      assert st.partRegexString + [body[0]] + body[1..] == st.partRegexString + body;
    }
  }

  /** A class `[body]` read in a quiet state is appended to the buffer whole
      and marked closed, waiting for what follows; no part is emitted. */
  lemma RunClass(body: string, st: State)
    requires AllClassChars(body) && Quiet(st)
    ensures Run("[" + body + "]", st) == Append(st, "[" + body + "]").(bracketListClosed := true)
  {
    var inClass := Append(st, "[").(bracketListOpen := true);
    assert Step(st, '[') == (inClass, false);
    assert "[" + body + "]" == ['['] + (body + "]");
    RunCons('[', body + "]", st);
    RunConcat(body, "]", inClass);
    RunClassBody(body, inClass);
    var closed := Append(inClass, body);
    assert Step(closed, ']') == (Append(closed.(bracketListOpen := false, bracketListClosed := true), "]"), false);
    RunOne(']', closed);
    assert closed.partRegexString + "]" == st.partRegexString + ("[" + body + "]");
  }

  // ---------------------------------------------------------------------
  // Ranges
  // ---------------------------------------------------------------------

  /** A character a range body may hold: digits and commas. */
  predicate RangeBodyChar(c: char) { IsDigit(c) || c == ',' }

  predicate AllRangeBodyChars(s: string) { forall i :: 0 <= i < |s| ==> RangeBodyChar(s[i]) }

  /** `s` without its commas. */
  function DropCommas(s: string): (r: string)
    ensures AllRangeBodyChars(s) ==> AllDigits(r)
  {
    if s == [] then [] else (if s[0] == ',' then [] else [s[0]]) + DropCommas(s[1..])
  }

  /** Inside an open range, with nothing escaped and nothing pending. */
  predicate ReadingRange(st: State)
  {
    !st.escaped && !st.bracketListClosed && st.range.rangeOpen && !st.range.rangeClosed
    && !st.range.rangeValueSet
  }

  /** `st` with `t` added to the range digit buffer. */
  function WithDigits(st: State, t: string): State
  {
    st.(range := st.range.(rangeValueString := st.range.rangeValueString + t))
  }

  lemma WithDigitsTwice(st: State, t: string, u: string)
    ensures WithDigits(WithDigits(st, t), u) == WithDigits(st, t + u)
  {
    AppendAssoc(st.range.rangeValueString, t, u);
  }

  lemma WithNoDigits(st: State)
    ensures WithDigits(st, "") == st
  {
    assert st.range.rangeValueString + "" == st.range.rangeValueString;
  }

  /** After the first comma one more digit is kept and a further comma is ignored. */
  lemma StepAfterComma(st: State, c: char)
    requires RangeBodyChar(c) && ReadingRange(st) && st.range.rangeCommas == 1
    ensures Step(st, c) == (WithDigits(st, DropCommas([c])), false)
  {
    assert [c][1..] == [];
    if c == ',' {
      WithNoDigits(st);
    } else {
      assert DropCommas([c]) == [c];
    }
  }

  lemma DropCommasStep(w: string)
    requires w != []
    ensures DropCommas(w) == DropCommas([w[0]]) + DropCommas(w[1..])
  {
    assert [w[0]][1..] == [];
  }

  /** After the first comma, digits keep accumulating and further commas are ignored. */
  lemma {:induction false} RunRangeAfterComma(w: string, st: State)
    requires AllRangeBodyChars(w) && ReadingRange(st) && st.range.rangeCommas == 1
    ensures Run(w, st) == WithDigits(st, DropCommas(w))
  {
    if w == [] {
      WithNoDigits(st);
    } else {
      var next := WithDigits(st, DropCommas([w[0]]));
      StepAfterComma(st, w[0]);
      assert Run(w, st) == Run(w[1..], next);
      assert ReadingRange(next) && next.range.rangeCommas == 1 && AllRangeBodyChars(w[1..]);
      RunRangeAfterComma(w[1..], next);
      DropCommasStep(w);
      WithDigitsTwice(st, DropCommas([w[0]]), DropCommas(w[1..]));
    }
  }

  /** Before any comma, one more digit is kept. */
  lemma StepRangeDigit(st: State, c: char)
    requires IsDigit(c) && ReadingRange(st)
    ensures Step(st, c) == (WithDigits(st, [c]), false)
  {
  }

  /** Before any comma, digits accumulate in the range digit buffer. */
  lemma {:induction false} RunRangeDigits(d: string, st: State)
    requires AllDigits(d) && ReadingRange(st)
    ensures Run(d, st) == WithDigits(st, d)
  {
    if d == [] {
      WithNoDigits(st);
    } else {
      var next := WithDigits(st, [d[0]]);
      StepRangeDigit(st, d[0]);
      assert Run(d, st) == Run(d[1..], next);
      assert ReadingRange(next) && AllDigits(d[1..]);
      RunRangeDigits(d[1..], next);
      WithDigitsTwice(st, [d[0]], d[1..]);
      assert [d[0]] + d[1..] == d;
    }
  }

  /** The bounds a `{w}` range leaves: without a comma the digits are the
      minimum and the maximum is untouched; otherwise the digits before the
      first comma are the minimum and all later digits form the maximum. */
  function RangeBounds(w: string, oldMax: Num): (Num, Num)
  {
    match IndexOf(w, ',')
    case None => (ParseInt(w), oldMax)
    case Some(k) => (ParseInt(w[..k]), ParseInt(DropCommas(w[k + 1..])))
  }

  /** The state right after an unescaped `{` outside a range. */
  function Opened(st: State): State
  {
    st.(bracketListClosed := false, range := IdleRange.(rangeOpen := true))
  }

  /** The state right after the first comma of a range whose digits were `a`. */
  function Committed(st: State, a: string): State
  {
    st.(minimumInstances := ParseInt(a),
        range := st.range.(rangeCommas := 1, rangeFirst := false, rangeValueString := ""))
  }

  lemma RunRangeEnter(w: string, st: State)
    requires !st.escaped && !st.range.rangeOpen
    ensures Run("{" + w + "}", st) == Run("}", Run(w, Opened(st)))
  {
    assert Step(st, '{').0 == Opened(st);
    assert "{" + w + "}" == "{" + (w + "}");
    RunConcat("{", w + "}", st);
    RunConcat(w, "}", Opened(st));
  }

  lemma DigitsBeforeComma(w: string, k: nat)
    requires AllRangeBodyChars(w) && k <= |w| && ',' !in w[..k]
    ensures AllDigits(w[..k])
  {
    forall i | 0 <= i < k ensures IsDigit(w[..k][i]) {
      assert w[..k][i] == w[i] && RangeBodyChar(w[i]);
    }
  }

  /** A character that is not re-read is consumed by one step. */
  lemma RunCons(c: char, rest: string, st: State)
    requires !Step(st, c).1
    ensures Run([c] + rest, st) == Run(rest, Step(st, c).0)
  {
    assert ([c] + rest)[0] == c && ([c] + rest)[1..] == rest;
  }

  lemma StepFirstComma(st: State, a: string)
    requires AllDigits(a) && !st.escaped && !st.range.rangeOpen
    ensures Step(WithDigits(Opened(st), a), ',') == (Committed(Opened(st), a), false)
  {
    var x := WithDigits(Opened(st), a);
    assert x.range == IdleRange.(rangeOpen := true, rangeValueString := a);
    assert Step(x, ',') == OtherChar(x, ',');
    assert OtherChar(x, ',') == (RangeChar(x, ','), false);
  }

  lemma RunRangeWithComma(w: string, k: nat, st: State)
    requires AllRangeBodyChars(w) && k < |w| && w[k] == ',' && ',' !in w[..k]
    requires !st.escaped && !st.range.rangeOpen
    ensures Run(w, Opened(st)) == WithDigits(Committed(Opened(st), w[..k]), DropCommas(w[k + 1..]))
  {
    var a, b := w[..k], w[k + 1..];
    var o := Opened(st);
    DigitsBeforeComma(w, k);
    assert AllRangeBodyChars(b) by {
      forall i | 0 <= i < |b| ensures RangeBodyChar(b[i]) {
        assert b[i] == w[k + 1 + i];
      }
    }
    SplitAtComma(w, k);
    RunConcat(a, [','] + b, o);
    RunRangeDigits(a, o);
    StepFirstComma(st, a);
    RunCons(',', b, WithDigits(o, a));
    RunRangeAfterComma(b, Committed(o, a));
  }

  lemma SplitAtComma(w: string, k: nat)
    requires k < |w| && w[k] == ','
    ensures w == w[..k] + ([','] + w[k + 1..])
  {
  }

  lemma CloseAfterDigits(st: State, d: string)
    requires !st.escaped && !st.range.rangeOpen
    ensures Run("}", WithDigits(Opened(st), d))
            == st.(bracketListClosed := false, minimumInstances := ParseInt(d),
                   range := IdleRange.(rangeClosed := true))
  {
    var x := WithDigits(Opened(st), d);
    assert x.range.rangeValueString == d;
    RunOne('}', x);
  }

  lemma CloseAfterComma(st: State, a: string, d: string)
    requires !st.escaped && !st.range.rangeOpen
    ensures Run("}", WithDigits(Committed(Opened(st), a), d))
            == st.(bracketListClosed := false, minimumInstances := ParseInt(a), maximumInstances := ParseInt(d),
                   range := IdleRange.(rangeClosed := true))
  {
    var x := WithDigits(Committed(Opened(st), a), d);
    assert x.range.rangeValueString == d;
    assert !x.escaped && x.range.rangeOpen && !x.range.rangeFirst;
    assert CloseRange(x) == x.(maximumInstances := ParseInt(d), range := IdleRange.(rangeClosed := true));
    assert Step(x, '}') == (CloseRange(x), false);
    RunOne('}', x);
  }

  /** A range `{w}` of digits and commas read with no escape and no range
      open: the first comma commits the minimum, later commas are ignored, and
      the closing brace sets the minimum when no comma was seen and the
      maximum otherwise, then marks the range closed. A closed class before
      the range stays in the buffer, no longer marked closed; no part is emitted. */
  lemma RunRange(w: string, st: State)
    requires AllRangeBodyChars(w) && !st.escaped && !st.range.rangeOpen
    ensures var (lo, hi) := RangeBounds(w, st.maximumInstances);
            Run("{" + w + "}", st) ==
              st.(bracketListClosed := false, minimumInstances := lo, maximumInstances := hi,
                  range := IdleRange.(rangeClosed := true))
  {
    RunRangeEnter(w, st);
    match IndexOf(w, ',')
    case None =>
      DigitsBeforeComma(w, |w|);
      assert w[..|w|] == w;
      RunRangeDigits(w, Opened(st));
      CloseAfterDigits(st, w);
    case Some(k) =>
      RunRangeWithComma(w, k, st);
      CloseAfterComma(st, w[..k], DropCommas(w[k + 1..]));
  }

  /** A closed class or range followed by any character outside the switch's
      own cases is flushed first, and the character is read again. */
  lemma PendingFlushedBeforeOther(st: State, c: char)
    requires Pending(st) && !st.escaped && !IsSpecial(c)
    ensures Step(st, c) == (Flush(st), true)
  {
  }

  /** Outside a range an unescaped `*`, `+` or `?` is appended to the buffer,
      which is emitted at once with the pending bounds, whatever the buffer
      held: a closed class, an open class, a closed range or plain text. */
  lemma QuantifierOutsideRange(st: State, q: char)
    requires !st.escaped && !st.range.rangeOpen && st.range.rangeCount == 0
    requires q == '*' || q == '+' || q == '?'
    ensures Step(st, q) ==
              (MakePart(st, st.partRegexString + [q], st.minimumInstances, st.maximumInstances), false)
  {
  }

  /** Outside a range an unescaped `}` is appended to the buffer as text. */
  lemma StrayCloseBraceAppended(st: State)
    requires !st.escaped && !st.range.rangeOpen
    ensures Step(st, '}') == (Append(st, "}"), false)
  {
  }

  /** Outside a class an unescaped `]` is dropped. */
  lemma StrayCloseBracketDropped(st: State)
    requires !st.escaped && !st.bracketListOpen
    ensures Step(st, ']') == (st, false)
  {
  }

  /** With no class open or closed and nothing escaped, `[` opens a class
      without emitting anything, even when a closed range is pending. */
  lemma OpenBracketOpensClass(st: State)
    requires !st.escaped && !st.bracketListClosed && !st.bracketListOpen
    ensures Step(st, '[') == (Append(st, "[").(bracketListOpen := true), false)
  {
  }

  /** An unescaped `]` closes an open class, whether or not a range is open. */
  lemma CloseBracketClosesClass(st: State)
    requires !st.escaped && st.bracketListOpen
    ensures Step(st, ']') ==
              (Append(st.(bracketListOpen := false, bracketListClosed := true), "]"), false)
  {
  }

  /** Inside an open range every character without a case of its own other
      than a digit and the first comma is ignored: letters, white space and
      the anchors included. */
  lemma RangeIgnoresOther(st: State, c: char)
    requires !st.escaped && !Pending(st) && st.range.rangeOpen
    requires !IsSpecial(c) && !IsDigit(c) && (c != ',' || st.range.rangeCommas != 0)
    ensures Step(st, c) == (st, false)
  {
  }

  /** The state after `[aq]` with `q` a quantifier character: the
      quantifier emitted the still open class `[aq`, and the `]` that
      follows, with no class open, was dropped. */
  function AfterQuantifierInClass(a: char, q: char): State
  {
    Initial.(parts := [Some(Part(['[', a, q], Unset, Unset))])
  }

  lemma RunQuantifierInClass(a: char, q: char)
    requires !IsSpecial(a) && (q == '*' || q == '+' || q == '?')
    ensures Run(['[', a, q, ']'], Initial) == AfterQuantifierInClass(a, q)
  {
    var s1 := Append(Initial, "[").(bracketListOpen := true);
    var s2 := Append(s1, [a]);
    var s3 := AfterQuantifierInClass(a, q);
    OpenBracketOpensClass(Initial);
    assert Step(s1, a) == (s2, false);
    QuantifierOutsideRange(s2, q);
    assert s2.partRegexString + [q] == ['[', a, q];
    assert MakePart(s2, ['[', a, q], Unset, Unset) == s3;
    StrayCloseBracketDropped(s3);
    assert ['[', a, q, ']'] == ['['] + [a, q, ']'];
    RunCons('[', [a, q, ']'], Initial);
    assert [a, q, ']'] == [a] + [q, ']'];
    RunCons(a, [q, ']'], s1);
    assert [q, ']'] == [q] + [']'];
    RunCons(q, [']'], s2);
    RunOne(']', s3);
  }

  /** A quantifier character inside a class ends the class: `[aq]` compiles
      to the single part `[aq`, an unterminated class, and that is the
      first pattern `IsMatch` hands to the engine. */
  lemma QuantifierEndsClass(a: char, q: char)
    requires !IsSpecial(a) && !IsWhiteSpace(a) && (q == '*' || q == '+' || q == '?')
    ensures Compile(['[', a, q, ']']) == PRegex([Some(Part(['[', a, q], Unset, Unset))], false, false)
  {
    RunQuantifierInClass(a, q);
    BracketedIsPlain(a, q);
    CompileOfPlain(['[', a, q, ']']);
  }

  lemma BracketedIsPlain(a: char, q: char)
    requires !IsWhiteSpace(a) && (q == '*' || q == '+' || q == '?')
    ensures NoWhiteSpace(['[', a, q, ']'])
  {
    assert !IsWhiteSpace('[') && !IsWhiteSpace(q) && !IsWhiteSpace(']');
  }

  // ---------------------------------------------------------------------
  // `\`, `[`, `{`, anchors and quantifiers in the states the loop reaches
  // ---------------------------------------------------------------------

  /** With nothing pending and no range open, `\` toggles the escape and is
      appended to the buffer. */
  lemma BackslashTogglesEscape(st: State)
    requires !Pending(st) && !st.range.rangeOpen
    ensures Step(st, '\\') == (Append(st.(escaped := !st.escaped), "\\"), false)
  {
  }

  /** A pending class or range is emitted before `\`, and the reset that
      emits it also clears the escape just set: the backslash starts a fresh
      buffer unescaped. */
  lemma BackslashFlushesPending(st: State)
    requires Pending(st) && !st.range.rangeOpen
    ensures Step(st, '\\') == (Append(Flush(st), "\\"), false)
  {
  }

  /** Inside an open range `\` does not touch the escape; it is only
      appended to the buffer. */
  lemma BackslashInsideRange(st: State)
    requires st.range.rangeOpen && !st.bracketListClosed && !st.range.rangeClosed
    ensures Step(st, '\\') == (Append(st, "\\"), false)
  {
  }

  /** An unescaped `[` after a closed class emits that class first and then
      opens a new one. */
  lemma OpenBracketFlushesClass(st: State)
    requires st.bracketListClosed && !st.escaped
    ensures Step(st, '[') == (Append(Flush(st), "[").(bracketListOpen := true), false)
  {
  }

  /** An unescaped `[` inside an open class is written escaped, as `\[`. */
  lemma NestedOpenBracketEscaped(st: State)
    requires !st.escaped && st.bracketListOpen && !st.bracketListClosed
    ensures Step(st, '[') == (Append(st, "\\["), false)
  {
  }

  /** An unescaped `{` inside an open range is ignored. */
  lemma OpenRangeIgnoredInsideRange(st: State)
    requires !st.escaped && st.range.rangeOpen
    ensures Step(st, '{') == (st, false)
  {
  }

  /** The digit a quantifier character writes into an open range: `*` and
      `?` write 0 and `+` writes 1 while the first number is read; after the
      comma only `?` writes, a 1. */
  function RangeFill(q: char, rangeFirst: bool): string
  {
    if rangeFirst then (if q == '+' then "1" else "0") else (if q == '?' then "1" else "")
  }

  /** A quantifier character inside an open range writes its fill digit and
      itself into the buffer, which is emitted at once with the pending
      bounds; the range it was read in is reset along with the rest. */
  lemma QuantifierInOpenRange(st: State, q: char)
    requires !st.escaped && st.range.rangeOpen && st.range.rangeCount == 0
    requires q == '*' || q == '+' || q == '?'
    ensures Step(st, q) ==
              (MakePart(st, st.partRegexString + RangeFill(q, st.range.rangeFirst) + [q],
                        st.minimumInstances, st.maximumInstances), false)
  {
  }

  /** Outside a class or range, with nothing escaped or pending, `^` and `$`
      only set their flag: the buffer and the bounds are kept. */
  lemma AnchorOnlySetsFlag(st: State, c: char)
    requires Quiet(st) && IsAnchor(c)
    ensures Step(st, c) ==
              (if c == '^' then st.(startFlagSet := true) else st.(endFlagSet := true), false)
  {
  }

  /** The escape set by a `\` after a class is cleared by the flush of that
      class, so in `[a]\b` the backslash is discarded and `b` is an ordinary
      part. */
  lemma ClassThenEscapeLost(a: char, b: char)
    requires !IsSpecial(a) && !IsSpecial(b) && !IsAnchor(b)
    ensures Run(['[', a, ']', '\\', b], Initial)
            == Initial.(parts := [Some(Part(['[', a, ']'], Unset, Unset)), Some(Part([b], Unset, Unset))])
  {
    var st3 := Append(Initial, "[" + [a] + "]").(bracketListClosed := true);
    assert AllClassChars([a]);
    RunClass([a], Initial);
    BackslashFlushesPending(st3);
    assert Initial.partRegexString + ("[" + [a] + "]") == ['[', a, ']'];
    var s4 := Initial.(parts := [Some(Part(['[', a, ']'], Unset, Unset))], partRegexString := "\\");
    assert Append(Flush(st3), "\\") == s4;
    OrdinaryCharDiscardsBuffer(s4, b);
    assert ['[', a, ']', '\\', b] == ("[" + [a] + "]") + ['\\', b];
    RunConcat("[" + [a] + "]", ['\\', b], Initial);
    assert ['\\', b] == ['\\'] + [b];
    RunCons('\\', [b], st3);
    RunOne(b, s4);
  }

  /** The state after `a` and then `{?}`: parts `a` and `0?`, with `}` left
      in the buffer. */
  function AfterQuantifierInRange(a: char): State
  {
    Initial.(parts := [Some(Part([a], Unset, Unset)), Some(Part("0?", Unset, Unset))],
             partRegexString := "}")
  }

  /** The states the loop passes through on `{?}` after `a`. */
  function InRange(a: char): State { AfterFirst(a).(range := IdleRange.(rangeOpen := true)) }

  function AfterRangeQuantifier(a: char): State { AfterQuantifierInRange(a).(partRegexString := "") }

  lemma StepsOfQuantifierInRange(a: char)
    ensures Step(AfterFirst(a), '{') == (InRange(a), false)
    ensures Step(InRange(a), '?') == (AfterRangeQuantifier(a), false)
    ensures Step(AfterRangeQuantifier(a), '}') == (AfterQuantifierInRange(a), false)
  {
    var s2 := InRange(a);
    QuantifierInOpenRange(s2, '?');
    assert s2.partRegexString + RangeFill('?', true) + "?" == "0?";
    assert MakePart(s2, "0?", Unset, Unset) == AfterRangeQuantifier(a);
    StrayCloseBraceAppended(AfterRangeQuantifier(a));
    assert AfterRangeQuantifier(a).partRegexString + "}" == "}";
    assert Append(AfterRangeQuantifier(a), "}") == AfterQuantifierInRange(a);
  }

  lemma RunQuantifierInRange(a: char)
    ensures Run(['{', '?', '}'], AfterFirst(a)) == AfterQuantifierInRange(a)
  {
    StepsOfQuantifierInRange(a);
    assert ['{', '?', '}'] == ['{'] + ['?', '}'];
    RunCons('{', ['?', '}'], AfterFirst(a));
    assert ['?', '}'] == ['?'] + ['}'];
    RunCons('?', ['}'], InRange(a));
    RunOne('}', AfterRangeQuantifier(a));
  }

  lemma FinishAfterQuantifierInRange(a: char)
    ensures Finish(AfterQuantifierInRange(a))
            == PRegex([Some(Part([a], Unset, Unset)), Some(Part("0?", Unset, Unset)), None,
                       Some(Part("}", Unset, Unset))], false, false)
  {
    var st := AfterQuantifierInRange(a);
    var p := Finish(st);
    assert |p.parts| == 4 && p.parts[..2] == st.parts && p.parts[2] == None
           && p.parts[3] == Some(Part("}", Unset, Unset));
  }

  lemma RunQuantifierInRangeFromStart(a: char)
    requires !IsSpecial(a) && !IsAnchor(a)
    ensures Run([a, '{', '?', '}'], Initial) == AfterQuantifierInRange(a)
  {
    RunFirstOrdinary(a);
    RunQuantifierInRange(a);
    assert [a, '{', '?', '}'] == [a] + ['{', '?', '}'];
    RunConcat([a], ['{', '?', '}'], Initial);
  }

  /** `a{?}`: the `?` inside the range writes `0?` as a part of its own and
      resets the range, so the `}` is left in the buffer and the end-of-input
      flush puts an `undefined` slot before it. */
  lemma QuantifierInRangeSplitsPattern(a: char)
    requires !IsSpecial(a) && !IsAnchor(a) && !IsWhiteSpace(a)
    ensures Compile([a, '{', '?', '}'])
            == PRegex([Some(Part([a], Unset, Unset)), Some(Part("0?", Unset, Unset)), None,
                       Some(Part("}", Unset, Unset))], false, false)
  {
    var s := [a, '{', '?', '}'];
    RunQuantifierInRangeFromStart(a);
    assert NoWhiteSpace(s) by {
      assert !IsWhiteSpace('{') && !IsWhiteSpace('?') && !IsWhiteSpace('}');
    }
    CompileOfPlain(s);
    FinishAfterQuantifierInRange(a);
  }

  // ---------------------------------------------------------------------
  // Ordinary characters discard the pending buffer
  // ---------------------------------------------------------------------

  /** An unescaped ordinary character read outside any class or range, with
      nothing pending, becomes a one-character part of its own. Whatever the
      buffer and the bounds held is discarded by the reset that follows. */
  lemma OrdinaryCharDiscardsBuffer(st: State, c: char)
    requires Quiet(st) && !IsSpecial(c) && !IsAnchor(c)
    ensures Step(st, c) == (MakePart(st, [c], Unset, Unset), false)
  {
  }

  /** The one-part state after an ordinary first character. */
  function AfterFirst(a: char): State
  {
    Initial.(parts := [Some(Part([a], Unset, Unset))])
  }

  lemma RunFirstOrdinary(a: char)
    requires !IsSpecial(a) && !IsAnchor(a)
    ensures Run([a], Initial) == AfterFirst(a)
  {
    OrdinaryCharDiscardsBuffer(Initial, a);
    RunOne(a, Initial);
  }

  /** An escaped quantifier character followed by an ordinary character is
      lost: `\*a` leaves only the part `a`. */
  lemma EscapedQuantifierLost(q: char, a: char)
    requires q == '*' || q == '+' || q == '?'
    requires !IsSpecial(a) && !IsAnchor(a)
    ensures Run(['\\', q, a], Initial) == AfterFirst(a)
  {
    var s1 := Initial.(escaped := true, partRegexString := "\\");
    var s2 := Initial.(partRegexString := ['\\', q]);
    assert Initial.partRegexString + "\\" == "\\";
    assert Backslash(Initial) == s1;
    assert Step(Initial, '\\') == (s1, false);
    assert "\\" + [q] == ['\\', q];
    assert Step(s1, q) == (s2, false);
    OrdinaryCharDiscardsBuffer(s2, a);
    assert MakePart(s2, [a], Unset, Unset) == AfterFirst(a);
    assert ['\\', q, a] == ['\\'] + [q, a];
    RunCons('\\', [q, a], Initial);
    assert [q, a] == [q] + [a];
    RunCons(q, [a], s1);
    RunOne(a, s2);
  }

  /** A stray `}` between two ordinary characters is appended to the buffer
      and then discarded: `a}b` gives the parts `a` and `b`. */
  lemma StrayCloseBraceLost(a: char, b: char)
    requires !IsSpecial(a) && !IsAnchor(a) && !IsSpecial(b) && !IsAnchor(b)
    ensures Run([a, '}', b], Initial)
            == Initial.(parts := [Some(Part([a], Unset, Unset)), Some(Part([b], Unset, Unset))])
  {
    var s1 := AfterFirst(a);
    var s2 := Append(s1, "}");
    assert Step(Initial, a) == (s1, false) by {
      OrdinaryCharDiscardsBuffer(Initial, a);
    }
    assert Step(s1, '}') == (s2, false);
    OrdinaryCharDiscardsBuffer(s2, b);
    assert [a, '}', b] == [a] + ['}', b];
    RunCons(a, ['}', b], Initial);
    assert ['}', b] == ['}'] + [b];
    RunCons('}', [b], s1);
    RunOne(b, s2);
  }

  /** A one-digit range `{d}` read with no escape and no range open sets
      the minimum to `d` and leaves the range closed and pending. */
  lemma RunDigitRange(d: char, st: State)
    requires IsDigit(d) && !st.escaped && !st.range.rangeOpen
    ensures Run("{" + [d] + "}", st)
            == st.(bracketListClosed := false, minimumInstances := Int(DigitValue(d)),
                   range := IdleRange.(rangeClosed := true))
  {
    assert IndexOf([d], ',') == None;
    ParseIntOfDigits([d]);
    assert RangeBounds([d], st.maximumInstances) == (Int(DigitValue(d)), st.maximumInstances);
    RunRange([d], st);
  }

  /** An ordinary character after a pending class or range: the pending
      part is emitted, then the character becomes a part of its own. */
  lemma RunPendingThenOrdinary(b: char, rest: string, st: State)
    requires Pending(st) && !st.escaped && !IsSpecial(b) && !IsAnchor(b)
    ensures Run([b] + rest, st) == Run(rest, MakePart(Flush(st), [b], Unset, Unset))
  {
    PendingFlushedBeforeOther(st, b);
    assert ([b] + rest)[0] == b;
    assert Run([b] + rest, st) == Run([b] + rest, Flush(st));
    OrdinaryCharDiscardsBuffer(Flush(st), b);
    RunCons(b, rest, Flush(st));
  }

  /** A range with no atom before it: in `a{d}b` the range closes over an
      empty buffer, and the ordinary `b` flushes it as a part with an empty
      value, which renders as the text "null". */
  lemma BareRangeEmitsEmptyPart(a: char, d: char, b: char)
    requires !IsSpecial(a) && !IsAnchor(a) && !IsSpecial(b) && !IsAnchor(b) && IsDigit(d)
    ensures Run([a, '{', d, '}', b], Initial).parts
            == [Some(Part([a], Unset, Unset)), Some(Part("", Int(DigitValue(d)), Unset)), Some(Part([b], Unset, Unset))]
    ensures Text(Part("", Int(DigitValue(d)), Unset)) == "null"
  {
    var s1 := AfterFirst(a);
    RunFirstOrdinary(a);
    RunDigitRange(d, s1);
    var s4 := s1.(minimumInstances := Int(DigitValue(d)), range := IdleRange.(rangeClosed := true));
    RunPendingThenOrdinary(b, [], s4);
    assert [b] + [] == [b];
    assert Flush(s4).parts == [Some(Part([a], Unset, Unset)), Some(Part("", Int(DigitValue(d)), Unset))];
    assert [a, '{', d, '}', b] == [a] + ("{" + [d] + "}" + [b]);
    RunConcat([a], "{" + [d] + "}" + [b], Initial);
    RunConcat("{" + [d] + "}", [b], s1);
  }

}

=== FILE: pregex_part.dfy ===
/** `PRegexPart`: one quantified atom of a progressive pattern, a value
    string with a minimum and a maximum number of instances (`-1` = unset). */
module PRegexPart {
  import opened JsValues

  datatype Part = Part(value: string, minInstances: Num, maxInstances: Num)

  /** The "unset / unbounded" sentinel for both bounds. */
  const Unset: Num := Int(-1)

  /** The swap at the start of `ToString`: a minimum greater than the maximum
      trades places with it. This is the only change `ToString` makes to a part. */
  function Normalize(p: Part): (n: Part)
    ensures n.value == p.value
    ensures Greater(p.minInstances, p.maxInstances) ==>
              n.minInstances == p.maxInstances && n.maxInstances == p.minInstances
              && Less(n.minInstances, n.maxInstances)
    ensures !Greater(p.minInstances, p.maxInstances) ==> n == p
    ensures !Greater(n.minInstances, n.maxInstances)
  {
    if Greater(p.minInstances, p.maxInstances)
    then Part(p.value, p.maxInstances, p.minInstances)
    else p
  }

  /** `"{" + t + "}"`. */
  function Braced(t: string): string
  {
    "{" + t + "}"
  }

  /** The quantifier text `ToString` appends for the (already swapped) bounds. */
  function Suffix(lo: Num, hi: Num): string
  {
    if Same(lo, Int(0)) && Same(hi, Int(1)) then "?"
    else if Same(lo, Int(1)) && Same(hi, Int(-1)) then "+"
    else if Same(lo, Int(0)) && Same(hi, Int(-1)) then "*"
    else if Greater(lo, Int(0)) && Same(hi, Int(-1)) then Braced(NumberText(lo) + ",")
    else if AtLeast(lo, Int(0)) && Greater(hi, Int(0)) then
      if Same(lo, hi) then Braced(NumberText(lo))
      else Braced(NumberText(lo) + "," + NumberText(hi))
    else ""
  }

  /** `PRegexPart.ToString()`: `null` (None) for an empty value, otherwise the
      value followed by the quantifier of the swapped bounds. */
  function ToString(p: Part): (r: Option<string>)
  {
    var n := Normalize(p);
    if n.value == "" then None else Some(n.value + Suffix(n.minInstances, n.maxInstances))
  }

  /** The text `+=` appends for a part: JavaScript turns `null` into "null". */
  function Text(p: Part): string
  {
    match ToString(p)
    case None => "null"
    case Some(s) => s
  }

  /** `MakeBetween`: both bounds change only when both arguments are numbers >= 0. */
  function MakeBetween(p: Part, minimumInstances: Num, maximumInstances: Num): (r: Part)
    ensures r.value == p.value
    ensures AtLeast(minimumInstances, Int(0)) && AtLeast(maximumInstances, Int(0)) ==>
              r.minInstances == minimumInstances && r.maxInstances == maximumInstances
    ensures !(AtLeast(minimumInstances, Int(0)) && AtLeast(maximumInstances, Int(0))) ==> r == p
  {
    if minimumInstances.Int? && maximumInstances.Int?
       && minimumInstances.v >= 0 && maximumInstances.v >= 0
    then p.(minInstances := minimumInstances, maxInstances := maximumInstances)
    else p
  }

  /** `MakeMinOrMany`: a positive number becomes the minimum, with no maximum. */
  function MakeMinOrMany(p: Part, minimumInstances: Num): (r: Part)
    ensures r.value == p.value
    ensures Greater(minimumInstances, Int(0)) ==>
              r.minInstances == minimumInstances && r.maxInstances == Unset
    ensures !Greater(minimumInstances, Int(0)) ==> r == p
  {
    if minimumInstances.Int? && minimumInstances.v > 0
    then p.(minInstances := minimumInstances, maxInstances := Int(-1))
    else p
  }

  function MakeZeroOrMany(p: Part): (r: Part)
    ensures r.value == p.value && r.minInstances == Int(0) && r.maxInstances == Unset
  {
    p.(minInstances := Int(0), maxInstances := Int(-1))
  }

  function MakeOneOrMany(p: Part): (r: Part)
    ensures r.value == p.value && r.minInstances == Int(1) && r.maxInstances == Unset
  {
    p.(minInstances := Int(1), maxInstances := Int(-1))
  }

  function MakeOneOrNone(p: Part): (r: Part)
    ensures r.value == p.value && r.minInstances == Int(0) && r.maxInstances == Int(1)
  {
    p.(minInstances := Int(0), maxInstances := Int(1))
  }

  // ---------------------------------------------------------------------
  // Reading a rendered quantifier back
  // ---------------------------------------------------------------------

  /** The quantifier forms a regular expression may carry after an atom. */
  datatype Quantifier =
    | NoQuantifier
    | Optional
    | OneOrMore
    | ZeroOrMore
    | AtLeastN(m: nat)
    | ExactlyN(m: nat)
    | BetweenN(m: nat, n: nat)

  /** The (minimum, maximum) pair a quantifier stands for, in the part's
      encoding (`-1` for "no maximum"). */
  function BoundsOf(q: Quantifier): (Num, Num)
    requires !q.NoQuantifier?
  {
    match q
    case Optional => (Int(0), Int(1))
    case OneOrMore => (Int(1), Int(-1))
    case ZeroOrMore => (Int(0), Int(-1))
    case AtLeastN(m) => (Int(m), Int(-1))
    case ExactlyN(m) => (Int(m), Int(m))
    case BetweenN(m, n) => (Int(m), Int(n))
  }

  /** The index of the first occurrence of `c` in `s`, if any. */
  function IndexOf(s: string, c: char): (k: Option<nat>)
    ensures k.None? <==> c !in s
    ensures k.Some? ==> k.value < |s| && s[k.value] == c && c !in s[..k.value]
  {
    if s == [] then None
    else if s[0] == c then Some(0)
    else
      match IndexOf(s[1..], c)
      case None => None
      case Some(k) =>
        assert s[..k + 1] == [s[0]] + s[1..][..k];
        Some(k + 1)
  }

  /** Reads the text between `{` and `}`: `m`, `m,` or `m,n` in canonical decimals. */
  function ReadBraces(b: string): Option<Quantifier>
  {
    match IndexOf(b, ',')
    case None => if Canonical(b) then Some(ExactlyN(DecimalValue(b))) else None
    case Some(k) =>
      var lo := b[..k];
      var hi := b[k + 1..];
      if !Canonical(lo) then None
      else if hi == "" then Some(AtLeastN(DecimalValue(lo)))
      else if Canonical(hi) then Some(BetweenN(DecimalValue(lo), DecimalValue(hi)))
      else None
  }

  /** Reads a quantifier written as a whole string; None when it is not one. */
  function ReadQuantifier(s: string): Option<Quantifier>
  {
    if s == "" then Some(NoQuantifier)
    else if s == "?" then Some(Optional)
    else if s == "+" then Some(OneOrMore)
    else if s == "*" then Some(ZeroOrMore)
    else if |s| >= 3 && s[0] == '{' && s[|s| - 1] == '}' then ReadBraces(s[1..|s| - 1])
    else None
  }

  /** The usual written form of each quantifier. */
  function Written(q: Quantifier): string
  {
    match q
    case NoQuantifier => ""
    case Optional => "?"
    case OneOrMore => "+"
    case ZeroOrMore => "*"
    case AtLeastN(m) => Braced(NatToString(m) + ",")
    case ExactlyN(m) => Braced(NatToString(m))
    case BetweenN(m, n) => Braced(NatToString(m) + "," + NatToString(n))
  }

  /** The text between braces is determined by what it reads as. */
  lemma ReadBracesExact(b: string, q: Quantifier)
    requires ReadBraces(b) == Some(q)
    ensures Braced(b) == Written(q)
  {
    match IndexOf(b, ',')
    case None =>
      assert Canonical(b) && q == ExactlyN(DecimalValue(b));
      NatToStringOfDecimal(b);
    case Some(k) =>
      var lo, hi := b[..k], b[k + 1..];
      assert b[k] == ',';
      assert Canonical(lo);
      NatToStringOfDecimal(lo);
      if hi == "" {
        assert q == AtLeastN(DecimalValue(lo));
        assert b == lo + ",";
      } else {
        assert Canonical(hi) && q == BetweenN(DecimalValue(lo), DecimalValue(hi));
        NatToStringOfDecimal(hi);
        assert b == lo + "," + hi;
      }
  }

  /** The reader accepts exactly one text per quantifier: its written form. */
  lemma ReadQuantifierExact(s: string, q: Quantifier)
    requires ReadQuantifier(s) == Some(q)
    ensures s == Written(q)
  {
    if |s| >= 3 && s[0] == '{' && s[|s| - 1] == '}' && s != "?" && s != "+" && s != "*" {
      var b := s[1..|s| - 1];
      assert s == Braced(b);
      ReadBracesExact(b, q);
    }
  }

  /** Bounds for which `ToString` writes a quantifier: a set minimum and
      either no maximum or a positive one. */
  predicate Quantified(lo: Num, hi: Num)
  {
    AtLeast(lo, Int(0)) && (Same(hi, Int(-1)) || Greater(hi, Int(0)))
  }

  lemma ReadBracesOne(m: nat)
    ensures ReadBraces(NatToString(m)) == Some(ExactlyN(m))
  {
    DecimalOfNatToString(m);
  }

  lemma ReadBracesTwo(m: nat, n: nat)
    ensures ReadBraces(NatToString(m) + "," + NatToString(n)) == Some(BetweenN(m, n))
  {
    var a, b := NatToString(m), NatToString(n);
    DecimalOfNatToString(m);
    DecimalOfNatToString(n);
    IndexOfAfterDigits(a, b);
    assert (a + "," + b)[..|a|] == a;
    assert (a + "," + b)[|a| + 1..] == b;
  }

  lemma IndexOfAfterDigits(a: string, b: string)
    requires AllDigits(a)
    ensures IndexOf(a + "," + b, ',') == Some(|a|)
  {
    var s := a + "," + b;
    assert s[|a|] == ',';
  }

  lemma ReadBracesOpen(m: nat)
    ensures ReadBraces(NatToString(m) + ",") == Some(AtLeastN(m))
  {
    var a := NatToString(m);
    DecimalOfNatToString(m);
    IndexOfAfterDigits(a, "");
    assert (a + "," + "")[..|a|] == a;
  }

  lemma BracedReadsBack(t: string)
    ensures ReadQuantifier(Braced(t)) == ReadBraces(t)
  {
    var s := Braced(t);
    assert s[1..|s| - 1] == t;
  }

  /** The suffix table is a faithful encoding: whatever the bounds, the suffix
      reads back as a quantifier, which is absent exactly when the bounds are
      not `Quantified`, and otherwise stands for exactly those bounds. */
  lemma SuffixReadsBack(lo: Num, hi: Num)
    ensures var q := ReadQuantifier(Suffix(lo, hi));
            q.Some?
            && (q.value.NoQuantifier? <==> !Quantified(lo, hi))
            && (!q.value.NoQuantifier? ==> BoundsOf(q.value) == (lo, hi))
            && ShortestForm(lo, hi, q.value)
            && Suffix(lo, hi) == Written(q.value)
  {
    SuffixForm(lo, hi);
    ReadQuantifierExact(Suffix(lo, hi), ReadQuantifier(Suffix(lo, hi)).value);
  }

  /** Among the quantifiers with the same bounds, the table writes the
      shortest: `?` rather than `{0,1}`, `+` rather than `{1,}`, `*` rather
      than `{0,}`, and `{m}` rather than `{m,m}`. */
  predicate ShortestForm(lo: Num, hi: Num, q: Quantifier)
  {
    && (Same(lo, Int(0)) && Same(hi, Int(1)) ==> q == Optional)
    && (Same(lo, Int(1)) && Same(hi, Int(-1)) ==> q == OneOrMore)
    && (Same(lo, Int(0)) && Same(hi, Int(-1)) ==> q == ZeroOrMore)
    && (Quantified(lo, hi) && Same(lo, hi) ==> q == ExactlyN(lo.v))
  }

  lemma SuffixForm(lo: Num, hi: Num)
    ensures var q := ReadQuantifier(Suffix(lo, hi));
            q.Some?
            && (q.value.NoQuantifier? <==> !Quantified(lo, hi))
            && (!q.value.NoQuantifier? ==> BoundsOf(q.value) == (lo, hi))
            && ShortestForm(lo, hi, q.value)
  {
    if Same(lo, Int(0)) && Same(hi, Int(1)) {
    } else if Same(lo, Int(1)) && Same(hi, Int(-1)) {
    } else if Same(lo, Int(0)) && Same(hi, Int(-1)) {
    } else if Greater(lo, Int(0)) && Same(hi, Int(-1)) {
      BracedReadsBack(NatToString(lo.v) + ",");
      ReadBracesOpen(lo.v);
    } else if AtLeast(lo, Int(0)) && Greater(hi, Int(0)) {
      if Same(lo, hi) {
        BracedReadsBack(NatToString(lo.v));
        ReadBracesOne(lo.v);
      } else {
        BracedReadsBack(NatToString(lo.v) + "," + NatToString(hi.v));
        ReadBracesTwo(lo.v, hi.v);
      }
    } else {
      assert Suffix(lo, hi) == "";
    }
  }

  /** `ToString` round trip: the result is `null` exactly when the value is
      empty; otherwise it is the value followed by a suffix that reads back as
      the swapped bounds (or as no quantifier when those are not `Quantified`). */
  lemma ToStringReadsBack(p: Part)
    ensures ToString(p).None? <==> p.value == ""
    ensures p.value != "" ==>
              var r := ToString(p).value;
              var n := Normalize(p);
              |p.value| <= |r| && r[..|p.value|] == p.value
              && var q := ReadQuantifier(r[|p.value|..]);
                 q.Some?
                 && (q.value.NoQuantifier? <==> !Quantified(n.minInstances, n.maxInstances))
                 && (!q.value.NoQuantifier? ==> BoundsOf(q.value) == (n.minInstances, n.maxInstances))
                 && ShortestForm(n.minInstances, n.maxInstances, q.value)
                 && r == p.value + Written(q.value)
  {
    if p.value != "" {
      var n := Normalize(p);
      var r := ToString(p).value;
      assert r[|p.value|..] == Suffix(n.minInstances, n.maxInstances);
      SuffixReadsBack(n.minInstances, n.maxInstances);
    }
  }

  /** Calling `ToString` again on the part it left behind gives the same text:
      the swap it performs is invisible to every later call. */
  lemma ToStringStable(p: Part)
    ensures Normalize(Normalize(p)) == Normalize(p)
    ensures ToString(Normalize(p)) == ToString(p)
  {
  }

  /** Because the swap runs before the suffix table, a set minimum paired with
      the `-1` maximum is always swapped away: `+`, `*` and `{m,}` are never
      written, and such a part renders as its bare value. */
  lemma UnboundedRendersBare(p: Part)
    requires p.value != ""
    requires AtLeast(p.minInstances, Int(0)) && p.maxInstances == Unset
    ensures ToString(p) == Some(p.value)
  {
    assert p.value + "" == p.value;
  }

  /** A bound that `parseInt` left as NaN makes every comparison of the
      table false, so the part renders as its bare value. */
  lemma NaNBoundRendersBare(p: Part)
    requires p.value != ""
    requires p.minInstances == NaN || p.maxInstances == NaN
    ensures ToString(p) == Some(p.value)
  {
    assert p.value + "" == p.value;
  }

  /** A part with both bounds unset renders as its bare value. */
  lemma UnsetRendersBare(p: Part)
    requires p.value != "" && p.minInstances == Unset && p.maxInstances == Unset
    ensures ToString(p) == Some(p.value)
  {
    assert p.value + "" == p.value;
  }

  /** No part ever renders with a quantifier that has no maximum. */
  lemma NoUnboundedQuantifier(p: Part)
    requires p.value != ""
    ensures var r := ToString(p).value;
            var q := ReadQuantifier(r[|p.value|..]);
            q.Some? && !q.value.OneOrMore? && !q.value.ZeroOrMore? && !q.value.AtLeastN?
  {
    ToStringReadsBack(p);
  }

  /** `MakeOneOrMany`, `MakeZeroOrMany` and `MakeMinOrMany` therefore have no
      visible effect on the rendered text. */
  lemma UnboundedMakersRenderBare(p: Part, m: Num)
    requires p.value != ""
    ensures ToString(MakeOneOrMany(p)) == Some(p.value)
    ensures ToString(MakeZeroOrMany(p)) == Some(p.value)
    ensures Greater(m, Int(0)) ==> ToString(MakeMinOrMany(p, m)) == Some(p.value)
  {
    assert p.value + "" == p.value;
  }

  /** `MakeOneOrNone` renders as the value followed by `?`. */
  lemma OneOrNoneRendersOptional(p: Part)
    requires p.value != ""
    ensures ToString(MakeOneOrNone(p)) == Some(p.value + "?")
  {
  }

  /** `MakeBetween(a, b)` with a positive larger bound renders a quantifier
      that reads back as the two bounds in ascending order, whichever order
      they were given in. */
  lemma BetweenReadsBackOrdered(p: Part, a: nat, b: nat)
    requires p.value != ""
    requires a > 0 || b > 0
    ensures var r := ToString(MakeBetween(p, Int(a), Int(b))).value;
            var q := ReadQuantifier(r[|p.value|..]);
            q.Some? && !q.value.NoQuantifier?
            && BoundsOf(q.value) == (Int(if a <= b then a else b), Int(if a <= b then b else a))
  {
    ToStringReadsBack(MakeBetween(p, Int(a), Int(b)));
  }
}
